=== FILE: README.md ===
# STIX 2.1 data types, modelled in Dafny

This project models the data types of the Go library `stix2`. They are the
scalar building blocks every STIX object is made of:

- **Object identifiers** of the form `<type>--<uuid>`. Covered are how they
  are generated (random or content-derived), the prefix type match
  `ForType`/`ForTypes`, and the two format checks `HasValidIdentifier` and
  `IsValidIdentifier`.
- **The closed table of object type names** `AllTypes`.
- **The hash dictionary** and its identifier contribution. This is the
  single highest-priority hash (MD5 > SHA-1 > SHA-256 > SHA-512), written
  as a one-entry JSON object.
- **The checking constructors** of external references and kill chain
  phases.
- **The binary type**, whose text and JSON forms are padded standard
  base64 (section 4 of RFC 4648). Its JSON decoding also takes an array of
  byte values, as Go's generic decoding of a byte slice does.
- **RFC 3339 timestamps**. They are written with exactly three
  fraction digits and `Z` or a numeric offset. They are read back with the
  rules of Go's RFC 3339 fast path.

The model also covers the parts of Go's standard library and of the UUID
library that these functions depend on. These are modelled from their
documented behaviour; the library sources are not part of this model:

- `strings.Index` and `strings.Split`;
- the UUID text form and the forms the UUID parser accepts;
- `base64.StdEncoding`;
- the RFC 3339 fast path of `time.Parse`.

Modules:

| module | file | contents |
|---|---|---|
| `Results` | results.dfy | `Result`/`Option` and the error kinds |
| `GoStrings` | gostrings.dfy | `Index`, `Split`, `Join`, the `--` separator facts |
| `Numerals` | numerals.dfy | bytes, fixed-width decimal and hex digits |
| `Uuids` | uuids.dfy | 16-byte UUIDs, canonical text, the accepted parse forms |
| `StixTypes` | stixtypes.dfy | the type-name constants and `AllTypes` |
| `Identifiers` | identifiers.dfy | identifier construction, type match, format checks |
| `Base64` | base64.dfy | padded standard base64 encode/decode |
| `Binary` | binary.dfy | the binary type's text and JSON forms |
| `Hashes` | hashes.dfy | algorithm names and the identifier contribution |
| `Properties` | properties.dfy | external references and kill chain phases |
| `Timestamps` | timestamps.dfy | timestamp text, parsing and JSON forms |

Behaviour of the code a reader may not expect:

- **Quotes are not checked.** Timestamp JSON decoding drops the first and
  last characters without looking at them. It fails (panics) on inputs
  shorter than two characters, so `UnmarshalJson` requires two.
- **Not every RFC 3339 text is accepted.** Decoding accepts what Go's RFC
  3339 fast path accepts. Examples outside it: a lower-case `t` and a leap
  second.
- **`IsValidIdentifier` does not look at the type part.** It accepts an
  empty type part, as in `--<uuid>`.
- **The UUID check is `uuid.Parse`.** It accepts four text forms, not just
  the canonical one, and in the braced form it does not inspect the two
  outer characters.
- **Binary JSON decoding is not only base64.** A JSON array of numbers
  0..255 decodes to those bytes, `[]` to no bytes.

## Model

| member | source | states |
|---|---|---|
| GoStrings.Index | data-types.go:167 | never below -1; -1 exactly when the substring does not occur, and otherwise the first position where it occurs |
| GoStrings.Split | data-types.go:183 | the parts joined with the separator give back the text; no part contains the separator; every part but the last is cut at the first separator that follows it; there is a single part exactly when the separator does not occur |
| GoStrings.SplitUnique | data-types.go:183 | any list of parts with those properties is the split: they determine the result completely |
| GoStrings.TripleDashSplit | data-types.go:183 | cuts are made left to right: `a---b` splits into `a` and `-b` |
| GoStrings.SplitAround | data-types.go:183 | `a + sep + b` splits into exactly `[a, b]` when `sep` first occurs right after `a` and not in `b` |
| GoStrings.DoubleDashSplit | data-types.go:183-186 | a type without `--` that does not end in `-`, then `--`, then a text without `--` splits into exactly those two parts |
| GoStrings.NoDoubleDashIff | data-types.go:183 | "no two adjacent dashes" is the same as "the separator `--` does not occur" |
| Numerals.PadDecimal | data-types.go:438 | a zero-padded field of exactly the given width, made of decimal digits only |
| Numerals.PadDecimalValue | data-types.go:438-449 | reading a zero-padded field back gives the number it was written from |
| Numerals.DecimalTextOfValue | data-types.go:28-29 | the canonical decimal texts (no leading zero) are exactly the texts of their values |
| Numerals.HexChar | data-types.go:207 | a lower-case hex digit whose value is the given nibble |
| Numerals.HexCharOfValue | data-types.go:193 | on lower-case hex digits, reading then writing a digit gives it back |
| Uuids.ToString | data-types.go:207 | the 36-character canonical text: dashes exactly at positions 8, 13, 18 and 23; each byte as two lower-case hex digits, high nibble first |
| Uuids.ParseDashed | data-types.go:193 | the dashed form is accepted exactly when the dashes sit in place and all 32 digits are hex; each byte is read from its two digits |
| Uuids.Parse | data-types.go:193 | only texts of length 32, 36, 38 or 45 are accepted; a 36-character text is accepted exactly when it has the dashed shape |
| Uuids.ParseToString | data-types.go:193 | parsing the canonical text of a UUID gives back that UUID |
| Uuids.ToStringInjective | data-types.go:207 | distinct UUIDs have distinct canonical texts |
| Uuids.ToStringOfParse | data-types.go:193 | a lower-case dashed text is the canonical text of the UUID it parses to |
| Uuids.ToStringHasNoSeparator | data-types.go:207 | the canonical text contains no `--` and does not start with a dash, so it cannot disturb the identifier split |
| Uuids.ObservableNamespaceParses | data-types.go:199 | the observable namespace text parses (so the must-parse succeeds) to the namespace bytes, and is their canonical text |
| StixTypes.AllTypesWellFormed | data-types.go:323-366 | every listed type name is non-empty, contains no `--` and does not end in `-` |
| StixTypes.AllTypesDistinct | data-types.go:323-366 | the table holds 42 pairwise distinct type names |
| StixTypes.BundleNotInAllTypes | data-types.go:241 | the bundle type is not in the table of object types |
| Identifiers.NewIdentifier | data-types.go:205-208 | the identifier starts with the type and `--`; for a well-formed type it splits into the type and the UUID's canonical text |
| Identifiers.NewObservableIdentifier | data-types.go:211-214 | the identifier depends only on the value and the type: it is the random form with the name-based UUID of the value under the observable namespace |
| Identifiers.ForType | data-types.go:166-168 | true exactly when the type name is a prefix of the identifier |
| Identifiers.ForTypes | data-types.go:172-179 | true exactly when some given type name is a prefix of the identifier; false for no types |
| Identifiers.SplitTwoIff | data-types.go:183-186 | an identifier splits into exactly `[a, b]` if and only if it is `a--b` with no `--` in `a` or `b` and `a` not ending in `-` |
| Identifiers.HasValidIdentifier | data-types.go:182-195 | the type check holds exactly when the type is non-empty and well formed, the identifier starts with it and `--`, and the rest contains no `--` and is a UUID text |
| Identifiers.IsValidIdentifier | data-types.go:217-228 | the format check holds exactly when `--` occurs and the text after its first occurrence contains no `--` and is a UUID text; the type part is not inspected |
| Identifiers.HasValidImpliesIsValid | data-types.go:182-228 | every identifier the type check accepts passes the format check |
| Identifiers.EmptyTypePartAccepted | data-types.go:217-228 | `--<uuid>` passes the format check but fails the type check for every type |
| Identifiers.NewIdentifierValid | data-types.go:205-208 | a random identifier of a listed type passes the type check, the format check and the prefix match |
| Identifiers.NewIdentifierInjective | data-types.go:205-208 | for any type names, two random identifiers are equal if and only if their types and UUIDs are equal |
| Identifiers.ObservableIdentifierIff | data-types.go:211-214 | for any types, two content-derived identifiers are equal if and only if the types are equal and the values derive the same UUID; equal inputs always collide |
| Identifiers.EmptyTypeMatchesAll | data-types.go:166-168 | the empty type name matches every identifier |
| Identifiers.MalwareAnalysisMatchesMalware | data-types.go:166-168 | a malware-analysis identifier is "for" the malware type, yet fails the malware type check |
| Base64.Encode | data-types.go:22-24 | the encoding has 4·⌈n/3⌉ characters, all from the alphabet or `=`; DecodeEncode fixes the content and EncodePadBitsZero the unused bits |
| Base64.EncodeLastCharOne | data-types.go:22-24 | for a final single byte, the character before `==` is written from the byte's low two bits followed by four zero bits |
| Base64.EncodeLastCharTwo | data-types.go:22-24 | for a final pair of bytes, the character before `=` is written from the last byte's low four bits followed by two zero bits |
| Base64.EncodePadBitsZero | data-types.go:22-24 | the unused low bits of a padded final group are zero (four before `==`, two before `=`), the canonical encoding of section 3.5 of RFC 4648 |
| Base64.Decode | data-types.go:27-32 | a successful decode consumed exactly the encoded length of its result (line breaks aside); text whose length is not a multiple of four is rejected |
| Base64.DecodeOkIff | data-types.go:27-32 | a text decodes exactly when, line breaks removed, it is a multiple of four characters, alphabet characters before the last group, and a last group with zero, one or two `=`; every other text is a base64 error |
| Base64.DecodeEncode | data-types.go:22-32 | decoding the encoding of any byte sequence, the empty one included, gives it back |
| Base64.NonCanonicalPadBitsAccepted | data-types.go:27-32 | the decoder is not strict: texts differing only in unused padding bits decode alike |
| Base64.LineBreaksSkipped | data-types.go:27-32 | CR and LF inside the text are skipped |
| Base64.MalformedPaddingRejected | data-types.go:27-32 | missing padding, too much padding and padding before the last group are errors |
| Binary.String | data-types.go:22-24 | the text form has 4·⌈n/3⌉ base64 characters |
| Binary.StringDecodes | data-types.go:22-24 | the text form decodes back to the bytes |
| Binary.MarshalJson | data-types.go:35-37 | the JSON form is a string literal without escapes, two characters longer than the text form |
| Binary.UnmarshalJson | data-types.go:27-32 | `null` and `[]` give no bytes; a string literal is base64-decoded; an array has its comma-separated elements decoded one byte each; any other JSON value is an error |
| Binary.ParseElement | data-types.go:28-29 | an array element is a byte exactly when it is `null` or an integer literal without leading zeros up to 255; `null` gives the zero byte and a literal its value |
| Binary.ParseElements | data-types.go:28-29 | an array decodes exactly when every element is a byte value, and then to one byte per element, in order |
| Binary.UnmarshalArray | data-types.go:27-32 | a JSON array of the byte values decodes back to the bytes |
| Binary.ArrayExamples | data-types.go:27-32 | `[1,2,3]` gives the bytes 1, 2, 3 and `[]` gives no bytes |
| Binary.ByteOutOfRange | data-types.go:27-32 | `[256]` is an error |
| Binary.TrailingCommaRejected | data-types.go:27-32 | `[1,]` is an error |
| Binary.UnmarshalMarshal | data-types.go:27-37 | unmarshalling the JSON form gives back the bytes |
| Binary.NonStringRejected | data-types.go:27-32 | a number and an unterminated string are rejected, while a quoted base64 text is decoded |
| Hashes.IdContribution | data-types.go:142-156 | empty exactly when none of MD5, SHA-1, SHA-256, SHA-512 is present; otherwise the entry of one of them that is present |
| Hashes.IdContributionPrecedence | data-types.go:142-156 | when an algorithm of the priority list is present and none before it is, its entry is chosen |
| Hashes.IdContributionIsFirstPresent | data-types.go:142-156 | the contribution agrees with a search of the priority list for the first algorithm present |
| Hashes.IdContributionEmptyIff | data-types.go:142-156 | the contribution is empty if and only if none of the four algorithms is present |
| Hashes.OtherAlgorithmsIgnored | data-types.go:142-156 | adding, replacing or removing any other algorithm leaves the contribution unchanged |
| Hashes.IdContributionDependsOnPrecedence | data-types.go:142-156 | dictionaries that agree on the four algorithms contribute alike |
| Hashes.Sha1BeatsSha256 | data-types.go:146-151 | with SHA-1 and SHA-256 present, SHA-1 is chosen; SHA3, SSDEEP and TLSH never contribute |
| Properties.NewExternalReference | data-types.go:103-117 | fails with the missing-property error exactly when the name is empty or description, URL and external id are all empty; otherwise stores all five parts as given |
| Properties.ExternalReferenceRebuilt | data-types.go:103-117 | the constructor rebuilds a reference from its parts if and only if the reference is valid |
| Properties.NewKillChainPhase | data-types.go:415-420 | fails with the missing-property error exactly when the chain name or phase name is empty; otherwise stores both |
| Properties.KillChainPhaseRebuilt | data-types.go:415-420 | the constructor rebuilds a phase from its parts if and only if the phase is valid |
| Timestamps.DaysIn | data-types.go:449 | every month has 28 to 31 days, and 29 exactly for February of a leap year |
| Timestamps.Truncate | data-types.go:438 | drops the sub-millisecond part: a whole number of milliseconds, at most one millisecond below, all else unchanged |
| Timestamps.String | data-types.go:435-439 | 24 characters for UTC (ending in `Z`), 29 with a numeric offset; a dot before the fraction |
| Timestamps.ParseZone | data-types.go:449 | accepts `Z`, or a sign, hours up to 23, a colon and minutes up to 59, within the offset bounds |
| Timestamps.FractionNanos | data-types.go:449 | any run of fraction digits gives less than a second, and exactly the fraction its first nine digits denote: with k digits, the result times 10^k is their value times 10^9; digits after the ninth are dropped |
| Timestamps.Parse | data-types.go:449 | every accepted text gives a valid timestamp (month range, day within the month of that year, hour, minute, second, offset); texts shorter than 19 characters are rejected |
| Timestamps.MarshalJson | data-types.go:442-444 | the text form between double quotes |
| Timestamps.UnmarshalJson | data-types.go:447-452 | every accepted JSON text gives a valid timestamp; texts shorter than 21 characters are rejected |
| Timestamps.ParseString | data-types.go:435-452 | reading the text form gives back the timestamp truncated to milliseconds |
| Timestamps.UnmarshalMarshal | data-types.go:442-452 | unmarshalling the JSON form gives back the timestamp truncated to milliseconds |
| Timestamps.StringOfTruncate | data-types.go:435-439 | the text form ignores everything below the millisecond |
| Timestamps.StringIff | data-types.go:435-439 | two valid timestamps have the same text form if and only if they agree down to the millisecond |
| Timestamps.DelimitersNotChecked | data-types.go:447-452 | any two characters around the text form are accepted, not only quotes |
| Timestamps.NullRejected | data-types.go:447-452 | JSON `null` is not a timestamp |
| Timestamps.LeapDays | data-types.go:449 | 29 February is valid in 2016, and no text reads as 29 February 2015 |
| Timestamps.LongFraction | data-types.go:449 | fraction digits after the ninth are dropped; a single digit counts as tenths |
| Timestamps.ZeroOffsetIsUtc | data-types.go:438-449 | `+00:00` and `-00:00` read as UTC, which the text form writes as `Z` |

## Left out

- The object collection store, the object variants and bundles, and the JSON parse functions `ParseExternalReference` and `ParseKillChainPhase` with their struct tags are outside this model. Those are library JSON decoding, and values they produce are not checked by the constructors.
- UUID generation is not modelled. The random UUID is a parameter of `Identifiers.NewIdentifier`. The name-based SHA-1 derivation is a function parameter of `Identifiers.NewObservableIdentifier`, since SHA-1 is not modelled.
- The UUID library is not part of this model. `Uuids.Parse` follows its documented text forms: 36, 38, 45 (`urn:uuid:`) and 32 characters. Its error values are reduced to "not accepted".
- Text is modelled as a sequence of characters, not bytes. Go slices and lengths count bytes, so the two views agree on ASCII text, and they agree wherever a position is checked for an ASCII character. They differ where a character is not inspected, as the next two lines say.
- Uuids.Parse: the two outer characters of the 38-character braced form are not inspected, so a non-ASCII character there is accepted. Go counts that character's bytes, finds no accepted length and rejects the text; the identifier checks inherit this difference.
- Timestamps.UnmarshalJson: the first and last characters are dropped. Go drops one byte from each end, so a non-ASCII first or last character leaves some of its bytes in front of the timestamp text, and Go rejects an input the model accepts.
- Go's general layout parser is not modelled. `time.Parse` falls back to it when the RFC 3339 fast path rejects a text. Texts only that parser accepts, such as a comma before the fraction, are rejected here.
- Time zone locations are not modelled; a timestamp carries a fixed offset in whole minutes within ±23:59. Go's zone-database lookup changes only the location's name, never the text form.
- A timestamp is modelled as a wall-clock reading plus its offset, not as an instant. Two texts naming the same instant with different offsets give different values. Go keeps the offset in the location, so its text form distinguishes them too.
- Years outside 0..9999, offsets with seconds and offsets beyond ±23:59 are not modelled; the RFC 3339 text form cannot express them.
- On a parse failure, Go also overwrites the receiver with the zero time. `Timestamps.UnmarshalJson` returns only the error.
- `Timestamps.UnmarshalJson` requires at least two characters. The Go code panics on shorter input instead of returning an error.
- Nil and empty byte slices are not distinguished. In Go a nil `Binary` marshals to `null`; the model always writes a string literal.
- Binary.UnmarshalJson: string literals are recognised only without escape sequences, and no whitespace is allowed around a value or between array elements. The base64 text and byte arrays as JSON writes them need neither. When an array element is not a byte value, Go fills the other elements and returns them with the error; the model returns only the error.
- Hash dictionary keys are not checked against the 3–250 character `[A-Za-z0-9_-]` rule. The code enforces that rule nowhere in the modelled functions.
- The `Hex` type and the extension key constants are declarations without behaviour. The kill chain name constant is kept as `Properties.LockheedMartinCyberKillChain`.
- `ErrPropertyMissing` is defined outside the modelled file. It is the `PropertyMissing` error kind here.

=== FILE: base64.dfy ===
/** Padded base64 with the standard alphabet (section 4 of RFC 4648), as
    Go's `base64.StdEncoding` encodes and decodes it: encoding always pads
    to a multiple of four characters; decoding skips CR and LF, requires the
    padding, and ignores the unused low bits of a padded final group.
 */
module Base64 {
  import opened Results
  import opened Numerals

  predicate IsAlphabetChar(c: char) {
    ('A' <= c <= 'Z') || ('a' <= c <= 'z') || ('0' <= c <= '9') || c == '+' || c == '/'
  }

  /** The value of an alphabet character. */
  function SextetValue(c: char): (v: nat)
    requires IsAlphabetChar(c)
    ensures v < 64
  {
    if 'A' <= c <= 'Z' then c as int - 'A' as int
    else if 'a' <= c <= 'z' then c as int - 'a' as int + 26
    else if '0' <= c <= '9' then c as int - '0' as int + 52
    else if c == '+' then 62
    else 63
  }

  /** The alphabet character of a 6-bit value; `SextetValue` inverts it. */
  function SextetChar(v: nat): (c: char)
    requires v < 64
    ensures IsAlphabetChar(c) && SextetValue(c) == v
  {
    if v < 26 then ('A' as int + v) as char
    else if v < 52 then ('a' as int + v - 26) as char
    else if v < 62 then ('0' as int + v - 52) as char
    else if v == 62 then '+'
    else '/'
  }

  const Pad: char := '='

  /** The four characters of a full three-byte group. */
  function EncodeGroup(b0: uint8, b1: uint8, b2: uint8): string
  {
    [SextetChar(b0 / 4), SextetChar(b0 % 4 * 16 + b1 / 16), SextetChar(b1 % 16 * 4 + b2 / 64), SextetChar(b2 % 64)]
  }

  predicate IsEncodedChar(c: char) {
    IsAlphabetChar(c) || c == Pad
  }

  /** Go's `StdEncoding.EncodeToString`: each three bytes become four
      characters; a final one or two bytes become four characters ending in
      two or one padding characters. */
  function Encode(bs: seq<uint8>): (s: string)
    ensures |s| == 4 * ((|bs| + 2) / 3)
    ensures forall i :: 0 <= i < |s| ==> IsEncodedChar(s[i])
    decreases |bs|
  {
    if |bs| == 0 then ""
    else if |bs| == 1 then
      [SextetChar(bs[0] / 4), SextetChar(bs[0] % 4 * 16), Pad, Pad]
    else if |bs| == 2 then
      [SextetChar(bs[0] / 4), SextetChar(bs[0] % 4 * 16 + bs[1] / 16), SextetChar(bs[1] % 16 * 4), Pad]
    else
      EncodeGroup(bs[0], bs[1], bs[2]) + Encode(bs[3..])
  }

  /** The character `k` places from the end of a concatenation lies in its
      second part when that part is long enough. */
  lemma TailOfConcat(head: string, rest: string, k: nat)
    requires 1 <= k <= |rest|
    ensures (head + rest)[|head + rest| - k] == rest[|rest| - k]
  {
  }

  /** Dropping a full group keeps the number of bytes left over. */
  lemma DropGroup(bs: seq<uint8>)
    requires |bs| > 3
    ensures |bs[3..]| % 3 == |bs| % 3 && bs[3..][|bs[3..]| - 1] == bs[|bs| - 1]
  {
  }

  /** More than three bytes encode as their first group and the rest. */
  lemma EncodeStep(bs: seq<uint8>)
    requires |bs| > 3
    ensures Encode(bs) == EncodeGroup(bs[0], bs[1], bs[2]) + Encode(bs[3..])
  {
  }

  /** A final single byte: the data character before `==`. */
  lemma {:induction false} EncodeLastCharOne(bs: seq<uint8>)
    requires |bs| % 3 == 1
    ensures |Encode(bs)| >= 3 && Encode(bs)[|Encode(bs)| - 3] == SextetChar(bs[|bs| - 1] % 4 * 16)
    decreases |bs|
  {
    if |bs| > 3 {
      DropGroup(bs);
      EncodeLastCharOne(bs[3..]);
      EncodeStep(bs);
      TailOfConcat(EncodeGroup(bs[0], bs[1], bs[2]), Encode(bs[3..]), 3);
    }
  }

  /** A final pair of bytes: the data character before `=`. */
  lemma {:induction false} EncodeLastCharTwo(bs: seq<uint8>)
    requires |bs| % 3 == 2
    ensures |Encode(bs)| >= 2 && Encode(bs)[|Encode(bs)| - 2] == SextetChar(bs[|bs| - 1] % 16 * 4)
    decreases |bs|
  {
    if |bs| > 3 {
      DropGroup(bs);
      EncodeLastCharTwo(bs[3..]);
      EncodeStep(bs);
      TailOfConcat(EncodeGroup(bs[0], bs[1], bs[2]), Encode(bs[3..]), 2);
    }
  }

  /** The unused low bits of a padded final group are written as zero, the
      canonical encoding of section 3.5 of RFC 4648: the last data character
      before `==` carries four zero bits, the one before `=` two. */
  lemma EncodePadBitsZero(bs: seq<uint8>)
    ensures var s := Encode(bs);
      && (|bs| % 3 == 1 ==> IsAlphabetChar(s[|s| - 3]) && SextetValue(s[|s| - 3]) % 16 == 0)
      && (|bs| % 3 == 2 ==> IsAlphabetChar(s[|s| - 2]) && SextetValue(s[|s| - 2]) % 4 == 0)
  {
    if |bs| % 3 == 1 {
      var v := bs[|bs| - 1] % 4 * 16;
      assert v < 64 && v % 16 == 0;
      EncodeLastCharOne(bs);
    } else if |bs| % 3 == 2 {
      var v := bs[|bs| - 1] % 16 * 4;
      assert v < 64 && v % 4 == 0;
      EncodeLastCharTwo(bs);
    }
  }

  predicate IsLineBreak(c: char) {
    c == '\r' || c == '\n'
  }

  /** The input with every CR and LF removed; the decoder skips them. */
  function StripLineBreaks(s: string): (t: string)
    ensures |t| <= |s|
    ensures forall i :: 0 <= i < |t| ==> !IsLineBreak(t[i])
  {
    if |s| == 0 then ""
    else if IsLineBreak(s[0]) then StripLineBreaks(s[1..])
    else [s[0]] + StripLineBreaks(s[1..])
  }

  /** The three bytes of a full group of four alphabet characters. */
  function DecodeGroup(q: string): (bs: seq<uint8>)
    requires |q| == 4 && IsAlphabetChar(q[0]) && IsAlphabetChar(q[1])
    requires IsAlphabetChar(q[2]) && IsAlphabetChar(q[3])
    ensures |bs| == 3
  {
    var c0, c1, c2, c3 := SextetValue(q[0]), SextetValue(q[1]), SextetValue(q[2]), SextetValue(q[3]);
    [c0 * 4 + c1 / 16, c1 % 16 * 16 + c2 / 4, c2 % 4 * 64 + c3]
  }

  predicate IsFullGroup(q: string)
    requires |q| == 4
  {
    IsAlphabetChar(q[0]) && IsAlphabetChar(q[1]) && IsAlphabetChar(q[2]) && IsAlphabetChar(q[3])
  }

  /** The last group: full, or padded by one or two `=`; the bits of the
      last data character that fall outside the decoded bytes are ignored. */
  function DecodeLastGroup(q: string): (r: Result<seq<uint8>>)
    requires |q| == 4
    ensures r.Ok? ==> 1 <= |r.value| <= 3 && (|r.value| + 2) / 3 == 1
    ensures r.Err? ==> r.error == MalformedBase64
  {
    if IsFullGroup(q) then Ok(DecodeGroup(q))
    else if IsAlphabetChar(q[0]) && IsAlphabetChar(q[1]) && IsAlphabetChar(q[2]) && q[3] == Pad then
      var c0, c1, c2 := SextetValue(q[0]), SextetValue(q[1]), SextetValue(q[2]);
      Ok([c0 * 4 + c1 / 16, c1 % 16 * 16 + c2 / 4])
    else if IsAlphabetChar(q[0]) && IsAlphabetChar(q[1]) && q[2] == Pad && q[3] == Pad then
      var c0, c1 := SextetValue(q[0]), SextetValue(q[1]);
      Ok([c0 * 4 + c1 / 16])
    else Err(MalformedBase64)
  }

  /** Decoding of text without line breaks: groups of four, padding only in
      the last group. */
  function DecodeGroups(t: string): (r: Result<seq<uint8>>)
    ensures r.Ok? ==> |t| == 4 * ((|r.value| + 2) / 3)
    ensures |t| % 4 != 0 ==> r == Err(MalformedBase64)
    ensures r.Err? ==> r.error == MalformedBase64
    decreases |t|
  {
    if |t| == 0 then Ok([])
    else if |t| < 4 then Err(MalformedBase64)
    else if |t| == 4 then DecodeLastGroup(t)
    else if IsFullGroup(t[..4]) then
      var rest :- DecodeGroups(t[4..]);
      Ok(DecodeGroup(t[..4]) + rest)
    else Err(MalformedBase64)
  }

  /** Go's `StdEncoding` decoding of a whole text. A successful decode
      consumed a text (after removing line breaks) exactly as long as the
      encoding of its result. */
  function Decode(s: string): (r: Result<seq<uint8>>)
    ensures r.Ok? ==> |StripLineBreaks(s)| == 4 * ((|r.value| + 2) / 3)
    ensures |StripLineBreaks(s)| % 4 != 0 ==> r == Err(MalformedBase64)
  {
    DecodeGroups(StripLineBreaks(s))
  }

  /** The shapes of a final group: four alphabet characters, three and one
      `=`, or two and two `=`. */
  predicate IsLastGroupShape(q: string)
    requires |q| == 4
  {
    && IsAlphabetChar(q[0]) && IsAlphabetChar(q[1])
    && (|| (IsAlphabetChar(q[2]) && IsAlphabetChar(q[3]))
        || (IsAlphabetChar(q[2]) && q[3] == Pad)
        || (q[2] == Pad && q[3] == Pad))
  }

  /** Well-formed padded base64 text without line breaks: a multiple of four
      characters, alphabet characters only before the final group, and a
      final group of one of the three shapes. */
  predicate IsBase64Text(t: string) {
    && |t| % 4 == 0
    && (forall i :: 0 <= i < |t| - 4 ==> IsAlphabetChar(t[i]))
    && (|t| > 0 ==> IsLastGroupShape(t[|t| - 4..]))
  }

  lemma LastGroupOkIff(q: string)
    requires |q| == 4
    ensures DecodeLastGroup(q).Ok? <==> IsLastGroupShape(q)
  {
  }

  /** A text of two or more groups is well formed exactly when its first
      group is full and the rest is well formed. */
  lemma Base64TextStep(t: string)
    requires |t| >= 8
    ensures IsBase64Text(t) <==> IsFullGroup(t[..4]) && IsBase64Text(t[4..])
  {
    var q, rest := t[..4], t[4..];
    assert forall i :: 0 <= i < |rest| ==> rest[i] == t[i + 4];
    assert rest[|rest| - 4..] == t[|t| - 4..];
    assert q[0] == t[0] && q[1] == t[1] && q[2] == t[2] && q[3] == t[3];
  }

  /** The group decoder accepts exactly the well-formed texts. */
  lemma {:induction false} DecodeGroupsOkIff(t: string)
    ensures DecodeGroups(t).Ok? <==> IsBase64Text(t)
    decreases |t|
  {
    if |t| == 4 {
      LastGroupOkIff(t);
      assert t[|t| - 4..] == t;
    } else if |t| >= 8 {
      DecodeGroupsOkIff(t[4..]);
      Base64TextStep(t);
    }
  }

  /** Go's decoder accepts a text exactly when, line breaks removed, it is
      well-formed padded base64; every other text is an error. */
  lemma DecodeOkIff(s: string)
    ensures Decode(s).Ok? <==> IsBase64Text(StripLineBreaks(s))
    ensures !IsBase64Text(StripLineBreaks(s)) ==> Decode(s) == Err(MalformedBase64)
  {
    DecodeGroupsOkIff(StripLineBreaks(s));
  }

  /** Encoded text holds no line break, so the decoder sees all of it. */
  lemma {:induction false} StripEncoded(s: string)
    requires forall i :: 0 <= i < |s| ==> IsEncodedChar(s[i])
    ensures StripLineBreaks(s) == s
    decreases |s|
  {
    if |s| > 0 {
      StripEncoded(s[1..]);
      assert s == [s[0]] + s[1..];
    }
  }

  /** A value split into a quotient and a remainder is recovered. */
  lemma Recombine(hi: nat, lo: nat, d: nat)
    requires d == 4 || d == 16 || d == 64
    requires lo < d
    ensures (hi * d + lo) / d == hi && (hi * d + lo) % d == lo
  {
  }

  lemma FirstByteRoundTrip(b0: uint8, b1: uint8)
    ensures var c1 := b0 % 4 * 16 + b1 / 16;
      c1 < 64 && b0 / 4 * 4 + c1 / 16 == b0 && c1 % 16 == b1 / 16
  {
    Recombine(b0 % 4, b1 / 16, 16);
  }

  lemma SecondByteRoundTrip(b1: uint8, b2: uint8)
    ensures var c2 := b1 % 16 * 4 + b2 / 64;
      c2 < 64 && b1 / 16 * 16 + c2 / 4 == b1 && c2 % 4 == b2 / 64
  {
    Recombine(b1 % 16, b2 / 64, 4);
  }

  lemma GroupRoundTrip(b0: uint8, b1: uint8, b2: uint8)
    ensures var q := EncodeGroup(b0, b1, b2);
      IsFullGroup(q) && DecodeGroup(q) == [b0, b1, b2]
  {
    FirstByteRoundTrip(b0, b1);
    SecondByteRoundTrip(b1, b2);
  }

  lemma OneByteRoundTrip(b0: uint8)
    ensures DecodeLastGroup([SextetChar(b0 / 4), SextetChar(b0 % 4 * 16), Pad, Pad]) == Ok([b0])
  {
    FirstByteRoundTrip(b0, 0);
  }

  lemma TwoBytesRoundTrip(b0: uint8, b1: uint8)
    ensures DecodeLastGroup([SextetChar(b0 / 4), SextetChar(b0 % 4 * 16 + b1 / 16), SextetChar(b1 % 16 * 4), Pad])
      == Ok([b0, b1])
  {
    FirstByteRoundTrip(b0, b1);
    SecondByteRoundTrip(b1, 0);
  }

  /** Decoding the encoding gives back the bytes, for every byte sequence
      including the empty one. */
  lemma {:induction false} DecodeEncode(bs: seq<uint8>)
    ensures Decode(Encode(bs)) == Ok(bs)
  {
    StripEncoded(Encode(bs));
    GroupsRoundTrip(bs);
  }

  lemma {:induction false} GroupsRoundTrip(bs: seq<uint8>)
    ensures DecodeGroups(Encode(bs)) == Ok(bs)
    decreases |bs|
  {
    if 1 <= |bs| <= 3 {
      LastGroupsRoundTrip(bs);
    } else if |bs| > 3 {
      GroupsRoundTrip(bs[3..]);
      GroupsStep(bs);
    }
  }

  /** One to three bytes make a single, final group. */
  lemma {:induction false} LastGroupsRoundTrip(bs: seq<uint8>)
    requires 1 <= |bs| <= 3
    ensures DecodeGroups(Encode(bs)) == Ok(bs)
  {
    if |bs| == 1 {
      OneByteRoundTrip(bs[0]);
      assert bs == [bs[0]];
    } else if |bs| == 2 {
      TwoBytesRoundTrip(bs[0], bs[1]);
      assert bs == [bs[0], bs[1]];
    } else {
      GroupRoundTrip(bs[0], bs[1], bs[2]);
      assert Encode(bs) == EncodeGroup(bs[0], bs[1], bs[2]);
      assert bs == [bs[0], bs[1], bs[2]];
    }
  }

  /** A full first group in front of a remainder that round-trips. */
  lemma {:induction false} GroupsStep(bs: seq<uint8>)
    requires |bs| > 3
    requires DecodeGroups(Encode(bs[3..])) == Ok(bs[3..])
    ensures DecodeGroups(Encode(bs)) == Ok(bs)
  {
    var head := [bs[0], bs[1], bs[2]];
    var q := EncodeGroup(bs[0], bs[1], bs[2]);
    var rest := Encode(bs[3..]);
    assert Encode(bs) == q + rest;
    assert |q| == 4 && IsFullGroup(q) && DecodeGroup(q) == head by {
      GroupRoundTrip(bs[0], bs[1], bs[2]);
    }
    assert DecodeGroups(q + rest) == Ok(head + bs[3..]) by {
      GroupThenRest(q, rest, head, bs[3..]);
    }
    assert head + bs[3..] == bs;
  }

  /** A full group followed by a non-empty well-formed remainder decodes to
      the group's bytes followed by the remainder's. */
  lemma {:induction false} GroupThenRest(q: string, rest: string, head: seq<uint8>, tail: seq<uint8>)
    requires |q| == 4 && IsFullGroup(q) && DecodeGroup(q) == head
    requires |rest| > 0 && DecodeGroups(rest) == Ok(tail)
    ensures DecodeGroups(q + rest) == Ok(head + tail)
  {
    var t := q + rest;
    assert t[..4] == q && t[4..] == rest;
  }

  /** The decoder is not strict: the unused bits of a padded final group
      may be set, so two different texts decode to the same bytes. */
  lemma NonCanonicalPadBitsAccepted()
    ensures Decode("QQ==") == Ok([65])
    ensures Decode("QR==") == Ok([65])
  {
    OneByteText("QQ==");
    OneByteText("QR==");
  }

  /** A padded final group whose two data characters are `Q` and one of
      `Q`..`T` carries the single byte 65. */
  lemma OneByteText(s: string)
    requires |s| == 4 && s[0] == 'Q' && 'Q' <= s[1] <= 'T' && s[2] == Pad && s[3] == Pad
    ensures Decode(s) == Ok([65])
  {
    StripEncoded(s);
    assert !IsFullGroup(s);
    assert SextetValue(s[0]) == 16 && SextetValue(s[1]) / 16 == 1;
  }

  /** Line breaks anywhere are skipped. */
  lemma LineBreaksSkipped()
    ensures Decode("QQ\r\n==") == Ok([65])
  {
    var s := "QQ\r\n==";
    assert s == "QQ" + ("\r\n" + "==");
    assert StripLineBreaks(s) == "QQ==";
    OneByteText("QQ==");
  }

  /** Missing or misplaced padding is rejected. */
  lemma MalformedPaddingRejected()
    ensures Decode("QQ") == Err(MalformedBase64)
    ensures Decode("Q===") == Err(MalformedBase64)
    ensures Decode("QQ==QQ==") == Err(MalformedBase64)
  {
    StripEncoded("QQ");
    StripEncoded("Q===");
    var t := "QQ==QQ==";
    StripEncoded(t);
    assert !IsFullGroup(t[..4]);
  }
}

=== FILE: binary.dfy ===
/** The binary data type: a byte sequence whose text form, and whose JSON
    form, is its padded standard base64 encoding. Reading JSON goes through
    the generic decoding of a byte slice, which also takes a JSON array of
    byte values.
 */
module Binary {
  import opened Results
  import opened Numerals
  import opened GoStrings
  import Base64

  /** The text form of the bytes: their base64 encoding. */
  function String(b: seq<uint8>): (s: string)
    ensures |s| == 4 * ((|b| + 2) / 3)
    ensures forall i :: 0 <= i < |s| ==> Base64.IsEncodedChar(s[i])
  {
    Base64.Encode(b)
  }

  /** The text form always decodes back to the bytes it was made from. */
  lemma StringDecodes(b: seq<uint8>)
    ensures Base64.Decode(String(b)) == Ok(b)
  {
    Base64.DecodeEncode(b);
  }

  /** A character that may stand unescaped inside a JSON string literal. */
  predicate IsPlainStringChar(c: char) {
    c != '"' && c != '\\' && c as int >= 0x20
  }

  /** A JSON string literal without escape sequences; `inner` is its
      content between the quotes. */
  predicate IsPlainStringLiteral(j: string) {
    && |j| >= 2 && j[0] == '"' && j[|j| - 1] == '"'
    && forall i :: 1 <= i < |j| - 1 ==> IsPlainStringChar(j[i])
  }

  /** The JSON form: the text form as a JSON string literal. */
  function MarshalJson(b: seq<uint8>): (j: string)
    ensures IsPlainStringLiteral(j)
    ensures |j| == 4 * ((|b| + 2) / 3) + 2
  {
    var s := String(b);
    var j := "\"" + s + "\"";
    assert forall i :: 1 <= i < |j| - 1 ==> j[i] == s[i - 1];
    j
  }

  /** An element of a JSON array decoded into a byte: an unsigned integer
      literal up to 255, or `null`, which leaves the zero byte. Negative,
      fractional, exponent and out-of-range numbers, strings, arrays and
      objects are errors. */
  function ParseElement(e: string): (r: Option<uint8>)
    ensures r.Some? <==> e == "null" || (IsCanonicalDecimal(e) && DecimalValue(e) < 256)
    ensures r.Some? ==> r.value == if e == "null" then 0 else DecimalValue(e)
  {
    if e == "null" then Some(0)
    else if IsCanonicalDecimal(e) && DecimalValue(e) < 256 then Some(DecimalValue(e))
    else None
  }

  /** The elements of an array, each decoded into a byte; the first
      element that is not a byte value makes the whole decode fail. */
  function ParseElements(parts: seq<string>): (r: Result<seq<uint8>>)
    ensures r.Ok? <==> forall k :: 0 <= k < |parts| ==> ParseElement(parts[k]).Some?
    ensures r.Ok? ==> |r.value| == |parts| && forall k :: 0 <= k < |parts| ==> ParseElement(parts[k]) == Some(r.value[k])
    ensures r.Err? ==> r.error == MalformedJson
    decreases |parts|
  {
    if |parts| == 0 then Ok([])
    else
      match ParseElement(parts[0])
      case None => Err(MalformedJson)
      case Some(v) =>
        var rest :- ParseElements(parts[1..]);
        assert forall k :: 1 <= k < |parts| ==> parts[k] == parts[1..][k - 1];
        Ok([v] + rest)
  }

  predicate IsArrayText(j: string) {
    |j| >= 2 && j[0] == '[' && j[|j| - 1] == ']'
  }

  /** Decoding of JSON into bytes: `null` leaves no bytes, a string literal
      is base64-decoded, an array has its elements decoded one byte each,
      and any other JSON value is an error. */
  function UnmarshalJson(j: string): (r: Result<seq<uint8>>)
    ensures j == "null" || j == "[]" ==> r == Ok([])
    ensures IsPlainStringLiteral(j) ==> r == Base64.Decode(j[1..|j| - 1])
    ensures IsArrayText(j) && |j| > 2 ==> r == ParseElements(Split(j[1..|j| - 1], ","))
    ensures !IsPlainStringLiteral(j) && !IsArrayText(j) && j != "null" ==> r == Err(MalformedJson)
  {
    if j == "null" then Ok([])
    else if IsPlainStringLiteral(j) then Base64.Decode(j[1..|j| - 1])
    else if IsArrayText(j) then
      if |j| == 2 then Ok([]) else ParseElements(Split(j[1..|j| - 1], ","))
    else Err(MalformedJson)
  }

  /** The elements of a byte array as JSON writes them: decimal numbers
      without leading zeros. */
  function ElementTexts(b: seq<uint8>): (ts: seq<string>)
    ensures |ts| == |b|
    ensures forall k :: 0 <= k < |b| ==> ts[k] == DecimalText(b[k])
  {
    seq(|b|, k requires 0 <= k < |b| => DecimalText(b[k]))
  }

  /** A byte sequence as a JSON array of numbers. */
  function ArrayText(b: seq<uint8>): (j: string)
    ensures IsArrayText(j) && !IsPlainStringLiteral(j)
    ensures j == "[]" <==> b == []
  {
    if |b| == 0 then "[]" else "[" + Join(ElementTexts(b), ",") + "]"
  }

  /** A digit text neither holds a comma nor has one starting inside it. */
  lemma DigitsHoldNoComma(d: string)
    requires AllDigits(d)
    ensures !Contains(d, ",") && CutAtFirst(d, ",")
  {
    forall j | 0 <= j < |d|
      ensures !OccursAt(d, ",", j)
    {
      assert d[j..j + 1][0] == d[j];
    }
    forall j | 0 <= j < |d|
      ensures !OccursAt(d + ",", ",", j)
    {
      assert (d + ",")[j..j + 1][0] == d[j];
    }
  }

  /** Splitting the element list at its commas gives the element texts. */
  lemma SplitElements(b: seq<uint8>)
    requires |b| >= 1
    ensures Split(Join(ElementTexts(b), ","), ",") == ElementTexts(b)
  {
    var ts := ElementTexts(b);
    forall k | 0 <= k < |ts|
      ensures !Contains(ts[k], ",") && CutAtFirst(ts[k], ",")
    {
      DigitsHoldNoComma(ts[k]);
    }
    SplitUnique(Join(ts, ","), ",", ts);
  }

  /** A JSON array of the byte values decodes to those bytes. */
  lemma UnmarshalArray(b: seq<uint8>)
    ensures UnmarshalJson(ArrayText(b)) == Ok(b)
  {
    if |b| > 0 {
      var j, ts := ArrayText(b), ElementTexts(b);
      assert j[1..|j| - 1] == Join(ts, ",");
      SplitElements(b);
      forall k | 0 <= k < |ts|
        ensures ParseElement(ts[k]) == Some(b[k])
      {
        DecimalTextValue(b[k]);
      }
      var r := ParseElements(ts);
      assert r.value == b;
    }
  }

  /** `[1,2,3]` decodes to the bytes 1, 2, 3, and `[]` to no bytes. */
  lemma ArrayExamples()
    ensures UnmarshalJson("[1,2,3]") == Ok([1, 2, 3])
    ensures UnmarshalJson("[]") == Ok([])
  {
    var ts := ElementTexts([1, 2, 3]);
    assert ts == ["1", "2", "3"];
    assert ArrayText([1, 2, 3]) == "[1,2,3]" by {
      assert Join(ts, ",") == "1,2,3";
    }
    UnmarshalArray([1, 2, 3]);
  }

  /** A value above 255 is an error. */
  lemma ByteOutOfRange()
    ensures UnmarshalJson("[256]") == Err(MalformedJson)
  {
    var j, big := "[256]", "256";
    assert j[1..|j| - 1] == big;
    assert Split(big, ",") == [big] by {
      DigitsHoldNoComma(big);
    }
    assert DecimalValue(big) == 256 by {
      assert big[..2][..1] == "2" && big[..2] == "25";
    }
    assert ParseElement(big) == None;
  }

  /** A trailing comma leaves an empty element, which is an error. */
  lemma TrailingCommaRejected()
    ensures UnmarshalJson("[1,]") == Err(MalformedJson)
  {
    var j, body := "[1,]", "1,";
    assert j[1..|j| - 1] == body;
    assert Split(body, ",") == ["1", ""] by {
      DigitsHoldNoComma("1");
      assert Join(["1", ""], ",") == body;
      SplitUnique(body, ",", ["1", ""]);
    }
    assert ParseElement("") == None;
  }

  /** Unmarshalling the JSON form gives back the bytes. */
  lemma UnmarshalMarshal(b: seq<uint8>)
    ensures UnmarshalJson(MarshalJson(b)) == Ok(b)
  {
    var j := MarshalJson(b);
    assert j[1..|j| - 1] == String(b);
    StringDecodes(b);
  }

  /** A number and an unterminated string are rejected, while a quoted
      base64 text is decoded. */
  lemma NonStringRejected()
    ensures UnmarshalJson("42") == Err(MalformedJson)
    ensures UnmarshalJson("\"QQ") == Err(MalformedJson)
    ensures UnmarshalJson("\"QQ==\"") == Ok([65])
  {
    var j := "\"QQ==\"";
    assert j[1..|j| - 1] == "QQ==";
    assert Base64.StripLineBreaks("QQ==") == "QQ==";
  }
}

=== FILE: gostrings.dfy ===
/** The two functions of Go's `strings` package the identifier scheme relies
    on: `strings.Index` (first occurrence of a substring) and `strings.Split`
    (left-to-right, non-overlapping split on a non-empty separator). Both are
    modelled on character sequences.
 */
module GoStrings {

  /** `sub` occurs in `s` starting at position `i`. */
  predicate OccursAt(s: string, sub: string, i: int) {
    0 <= i && i + |sub| <= |s| && s[i..i + |sub|] == sub
  }

  ghost predicate Contains(s: string, sub: string) {
    exists i :: OccursAt(s, sub, i)
  }

  predicate HasPrefix(s: string, prefix: string) {
    |prefix| <= |s| && s[..|prefix|] == prefix
  }

  /** The first occurrence of `sub` in `s` at or after position `i`, or -1. */
  function IndexFrom(s: string, sub: string, i: nat): (r: int)
    requires i <= |s|
    ensures r == -1 || (i <= r && OccursAt(s, sub, r))
    ensures forall j :: i <= j && (r == -1 || j < r) ==> !OccursAt(s, sub, j)
    decreases |s| - i
  {
    if i + |sub| > |s| then -1
    else if |sub| == 0 || s[i..i + |sub|] == sub then i
    else IndexFrom(s, sub, i + 1)
  }

  /** Go's `strings.Index`: the position of the first occurrence of `sub`
      in `s`, or -1 when there is none; the empty `sub` occurs at 0. */
  function Index(s: string, sub: string): (r: int)
    ensures r >= -1
    ensures r == -1 <==> !Contains(s, sub)
    ensures r >= 0 ==> OccursAt(s, sub, r) && forall j :: 0 <= j < r ==> !OccursAt(s, sub, j)
  {
    IndexFrom(s, sub, 0)
  }

  /** The inverse of `Split`: glue the parts back together with `sep`. */
  function Join(parts: seq<string>, sep: string): string
  {
    if |parts| == 0 then ""
    else if |parts| == 1 then parts[0]
    else parts[0] + sep + Join(parts[1..], sep)
  }

  /** An occurrence inside a prefix of `s` is an occurrence in `s`. */
  lemma OccursInPrefix(s: string, sub: string, m: nat, j: int)
    requires m <= |s|
    requires OccursAt(s[..m], sub, j)
    ensures OccursAt(s, sub, j) && j + |sub| <= m
  {
    assert s[..m][j..j + |sub|] == s[j..j + |sub|];
  }

  /** The text before the first occurrence holds no occurrence. */
  lemma BeforeFirstOccurrence(s: string, sub: string, m: nat)
    requires sub != "" && m <= |s|
    requires forall j :: 0 <= j < m ==> !OccursAt(s, sub, j)
    ensures !Contains(s[..m], sub)
  {
    forall j | OccursAt(s[..m], sub, j)
      ensures false
    {
      OccursInPrefix(s, sub, m, j);
    }
  }

  lemma JoinCons(head: string, rest: seq<string>, sep: string)
    requires |rest| >= 1
    ensures Join([head] + rest, sep) == head + sep + Join(rest, sep)
  {
    assert ([head] + rest)[1..] == rest;
  }

  /** One step of `Split`: the text before the first separator, the
      separator and the rest glue back to the whole text. */
  lemma SplitStepJoin(s: string, sep: string, m: nat, rest: seq<string>)
    requires m + |sep| <= |s| && s[m..m + |sep|] == sep
    requires |rest| >= 1 && Join(rest, sep) == s[m + |sep|..]
    ensures Join([s[..m]] + rest, sep) == s
  {
    JoinCons(s[..m], rest, sep);
    ThreeSlices(s, m, m + |sep|);
  }

  lemma ThreeSlices<T>(s: seq<T>, i: nat, j: nat)
    requires i <= j <= |s|
    ensures s[..i] + s[i..j] + s[j..] == s
  {
  }

  /** One step of `Split`: no part holds the separator. */
  lemma SplitStepParts(s: string, sep: string, m: nat, rest: seq<string>)
    requires sep != "" && m <= |s|
    requires forall j :: 0 <= j < m ==> !OccursAt(s, sep, j)
    requires forall k :: 0 <= k < |rest| ==> !Contains(rest[k], sep)
    ensures forall k :: 0 <= k < |rest| + 1 ==> !Contains(([s[..m]] + rest)[k], sep)
  {
    var parts := [s[..m]] + rest;
    BeforeFirstOccurrence(s, sep, m);
    assert forall k :: 1 <= k < |parts| ==> parts[k] == rest[k - 1];
  }

  /** The separator that follows `part` is the first one: no occurrence of
      `sep` starts inside `part + sep` before the appended separator. */
  predicate CutAtFirst(part: string, sep: string) {
    forall j :: 0 <= j < |part| ==> !OccursAt(part + sep, sep, j)
  }

  /** The text before the first occurrence, with the separator after it, is
      cut at its first separator. */
  lemma FirstCut(s: string, sep: string, m: nat)
    requires m + |sep| <= |s| && s[m..m + |sep|] == sep
    requires forall j :: 0 <= j < m ==> !OccursAt(s, sep, j)
    ensures CutAtFirst(s[..m], sep)
  {
    assert s[..m] + sep == s[..m + |sep|];
    forall j | 0 <= j < m && OccursAt(s[..m] + sep, sep, j)
      ensures false
    {
      OccursInPrefix(s, sep, m + |sep|, j);
    }
  }

  /** Go's `strings.Split(s, sep)` for a non-empty separator: the text before
      the first occurrence of `sep`, followed by the split of the rest. */
  function Split(s: string, sep: string): (parts: seq<string>)
    requires sep != ""
    ensures |parts| >= 1
    ensures Join(parts, sep) == s
    ensures forall k :: 0 <= k < |parts| ==> !Contains(parts[k], sep)
    ensures forall k :: 0 <= k < |parts| - 1 ==> CutAtFirst(parts[k], sep)
    ensures |parts| == 1 <==> !Contains(s, sep)
    ensures |parts| > 1 ==> |parts[0]| == Index(s, sep)
    decreases |s|
  {
    var m := Index(s, sep);
    if m < 0 then [s]
    else
      var rest := Split(s[m + |sep|..], sep);
      SplitStepJoin(s, sep, m, rest);
      SplitStepParts(s, sep, m, rest);
      FirstCut(s, sep, m);
      var parts := [s[..m]] + rest;
      assert forall k :: 1 <= k < |parts| ==> parts[k] == rest[k - 1];
      parts
  }

  /** The split is the only list of parts that glues back to the text, holds
      no separator inside a part, and cuts every part but the last at the
      first separator that follows it. */
  lemma {:induction false} SplitUnique(s: string, sep: string, parts: seq<string>)
    requires sep != "" && |parts| >= 1
    requires Join(parts, sep) == s
    requires forall k :: 0 <= k < |parts| ==> !Contains(parts[k], sep)
    requires forall k :: 0 <= k < |parts| - 1 ==> CutAtFirst(parts[k], sep)
    ensures Split(s, sep) == parts
    decreases |parts|
  {
    if |parts| == 1 {
      assert s == parts[0];
    } else {
      var a, rest := parts[0], Join(parts[1..], sep);
      assert s == a + sep + rest;
      assert OccursAt(s, sep, |a|) by {
        assert s[|a|..|a| + |sep|] == sep;
      }
      forall j | 0 <= j < |a|
        ensures !OccursAt(s, sep, j)
      {
        assert CutAtFirst(parts[0], sep);
        assert s[..|a| + |sep|] == a + sep;
        if OccursAt(s, sep, j) {
          assert (a + sep)[j..j + |sep|] == s[j..j + |sep|];
          assert OccursAt(a + sep, sep, j);
        }
      }
      assert Index(s, sep) == |a|;
      assert s[..|a|] == a && s[|a| + |sep|..] == rest;
      var tail := parts[1..];
      assert forall k :: 0 <= k < |tail| ==> tail[k] == parts[k + 1];
      SplitUnique(rest, sep, tail);
      assert parts == [a] + tail;
    }
  }

  /** Cuts are made left to right: in a run of three dashes the first two
      form the separator and the third starts the next part. */
  lemma TripleDashSplit()
    ensures Split("a---b", "--") == ["a", "-b"]
  {
    var parts := ["a", "-b"];
    assert Join(parts, "--") == "a---b";
    assert !Contains("a", "--");
    assert !Contains("-b", "--") by {
      assert !OccursAt("-b", "--", 0) by {
        assert "-b"[0..2][1] == 'b';
      }
    }
    assert CutAtFirst("a", "--") by {
      assert ("a" + "--")[0..2][0] == 'a';
    }
    SplitUnique("a---b", "--", parts);
  }

  /** Splitting `a + sep + b` yields exactly `[a, b]` when the first
      occurrence of `sep` is the one placed after `a` and `b` holds none. */
  lemma {:induction false} SplitAround(a: string, sep: string, b: string)
    requires sep != ""
    requires forall j :: 0 <= j < |a| ==> !OccursAt(a + sep + b, sep, j)
    requires !Contains(b, sep)
    ensures Split(a + sep + b, sep) == [a, b]
  {
    var s := a + sep + b;
    assert OccursAt(s, sep, |a|) by {
      assert s[|a|..|a| + |sep|] == sep;
    }
    var m := Index(s, sep);
    assert m == |a|;
    assert s[..m] == a;
    assert s[m + |sep|..] == b;
  }

  /** No two adjacent dashes: the text holds no identifier separator. */
  predicate NoDoubleDash(s: string) {
    forall i :: 0 <= i < |s| - 1 ==> !(s[i] == '-' && s[i + 1] == '-')
  }

  predicate EndsWithDash(s: string) {
    |s| > 0 && s[|s| - 1] == '-'
  }

  lemma NoDoubleDashIff(s: string)
    ensures NoDoubleDash(s) <==> !Contains(s, "--")
  {
    if !NoDoubleDash(s) {
      var i :| 0 <= i < |s| - 1 && s[i] == '-' && s[i + 1] == '-';
      assert s[i..i + 2] == "--";
      assert OccursAt(s, "--", i);
    }
    if Contains(s, "--") {
      var i :| OccursAt(s, "--", i);
      assert s[i..i + 2][0] == s[i] && s[i..i + 2][1] == s[i + 1];
    }
  }

  /** The identifier shape: a prefix without `--` that does not end in a dash,
      the separator, and a suffix without `--`, splits into exactly its two
      halves. */
  lemma DoubleDashSplit(a: string, b: string)
    requires NoDoubleDash(a) && !EndsWithDash(a)
    requires NoDoubleDash(b)
    ensures Split(a + "--" + b, "--") == [a, b]
  {
    var s := a + "--" + b;
    forall j | 0 <= j < |a|
      ensures !OccursAt(s, "--", j)
    {
      if j + 2 <= |s| {
        assert s[j..j + 2] == [s[j], s[j + 1]];
        if j + 1 < |a| {
          assert s[j] == a[j] && s[j + 1] == a[j + 1];
        } else {
          assert s[j] == a[|a| - 1] && s[j] != '-';
        }
      }
    }
    NoDoubleDashIff(b);
    SplitAround(a, "--", b);
  }
}

=== FILE: hashes.dfy ===
/** Hash dictionaries (algorithm name to digest text) and the identifier
    contribution of a hash dictionary: the single highest-priority hash,
    written as a one-entry JSON object, that enters the name-based
    identifier of an object carrying hashes.
 */
module Hashes {

  const MD5: string := "MD5"
  const SHA1: string := "SHA-1"
  const SHA256: string := "SHA-256"
  const SHA512: string := "SHA-512"
  const SHA3256: string := "SHA3-256"
  const SHA3512: string := "SHA3-512"
  const SSDEEP: string := "SSDEEP"
  const TLSH: string := "TLSH"

  type Hashes = map<string, string>

  /** The algorithms that contribute to an identifier, highest priority
      first. */
  const Precedence: seq<string> := [MD5, SHA1, SHA256, SHA512]

  /** The one-entry JSON object `{"<algorithm>":"<digest>"}`. */
  function Entry(algorithm: string, digest: string): (e: string)
    ensures |e| == |algorithm| + |digest| + 7
  {
    "{\"" + algorithm + "\":\"" + digest + "\"}"
  }

  /** The contribution of a hash dictionary: the entry of the first
      algorithm in `Precedence` that the dictionary holds, or the empty text
      when it holds none of them. */
  function IdContribution(h: Hashes): (r: string)
    ensures r == "" <==> forall j :: 0 <= j < |Precedence| ==> Precedence[j] !in h
    ensures r != "" ==> exists i :: 0 <= i < |Precedence| && Precedence[i] in h && r == Entry(Precedence[i], h[Precedence[i]])
  {
    assert Precedence[0] == MD5 && Precedence[1] == SHA1;
    assert Precedence[2] == SHA256 && Precedence[3] == SHA512;
    if MD5 in h then Entry(MD5, h[MD5])
    else if SHA1 in h then Entry(SHA1, h[SHA1])
    else if SHA256 in h then Entry(SHA256, h[SHA256])
    else if SHA512 in h then Entry(SHA512, h[SHA512])
    else ""
  }

  /** The first algorithm of `order` the dictionary holds. */
  function FirstPresent(h: Hashes, order: seq<string>): (r: int)
    ensures -1 <= r < |order|
    ensures r >= 0 ==> order[r] in h && forall j :: 0 <= j < r ==> order[j] !in h
    ensures r == -1 ==> forall j :: 0 <= j < |order| ==> order[j] !in h
  {
    if |order| == 0 then -1
    else if order[0] in h then 0
    else
      var r := FirstPresent(h, order[1..]);
      if r < 0 then -1 else r + 1
  }

  /** The contribution agrees with a search of the priority list: it is the
      entry of the first listed algorithm present, or empty. */
  lemma IdContributionIsFirstPresent(h: Hashes)
    ensures var i := FirstPresent(h, Precedence);
      IdContribution(h) == if i < 0 then "" else Entry(Precedence[i], h[Precedence[i]])
  {
    var i := FirstPresent(h, Precedence);
    assert i == -1 || i == 0 || i == 1 || i == 2 || i == 3;
  }

  /** Priority: when the algorithm at position `i` is present and none
      before it is, the contribution is its entry. */
  lemma IdContributionPrecedence(h: Hashes, i: nat)
    requires i < |Precedence| && Precedence[i] in h
    requires forall j :: 0 <= j < i ==> Precedence[j] !in h
    ensures IdContribution(h) == Entry(Precedence[i], h[Precedence[i]])
  {
    assert i == 0 || i == 1 || i == 2 || i == 3;
    assert 0 < i ==> Precedence[0] !in h;
    assert 1 < i ==> Precedence[1] !in h;
    assert 2 < i ==> Precedence[2] !in h;
  }

  /** The contribution is empty exactly when the dictionary holds none of the
      four contributing algorithms. */
  lemma IdContributionEmptyIff(h: Hashes)
    ensures IdContribution(h) == "" <==> MD5 !in h && SHA1 !in h && SHA256 !in h && SHA512 !in h
  {
    if MD5 in h || SHA1 in h || SHA256 in h || SHA512 in h {
      assert |IdContribution(h)| > 0;
    }
  }

  /** Adding, replacing or removing an algorithm outside the priority list
      leaves the contribution unchanged. */
  lemma OtherAlgorithmsIgnored(h: Hashes, k: string, v: string)
    requires k !in Precedence
    ensures IdContribution(h[k := v]) == IdContribution(h)
    ensures IdContribution(h - {k}) == IdContribution(h)
  {
    assert k != MD5 && k != SHA1 && k != SHA256 && k != SHA512 by {
      assert Precedence[0] == MD5 && Precedence[1] == SHA1;
      assert Precedence[2] == SHA256 && Precedence[3] == SHA512;
    }
  }

  /** The contribution depends only on the four contributing entries: two
      dictionaries that agree on them contribute alike. */
  lemma IdContributionDependsOnPrecedence(h1: Hashes, h2: Hashes)
    requires forall k :: k in Precedence ==> (k in h1 <==> k in h2)
    requires forall k :: k in Precedence && k in h1 ==> h1[k] == h2[k]
    ensures IdContribution(h1) == IdContribution(h2)
  {
    assert MD5 in Precedence && SHA1 in Precedence && SHA256 in Precedence && SHA512 in Precedence by {
      assert Precedence[0] == MD5 && Precedence[1] == SHA1;
      assert Precedence[2] == SHA256 && Precedence[3] == SHA512;
    }
  }

  /** With SHA-1 and SHA-256 present and no MD5, SHA-1 is chosen; SHA3 and
      fuzzy hashes never contribute. */
  lemma Sha1BeatsSha256(d1: string, d256: string, d3: string)
    ensures IdContribution(map[SHA256 := d256, SHA1 := d1]) == "{\"SHA-1\":\"" + d1 + "\"}"
    ensures IdContribution(map[SHA3256 := d3, SSDEEP := d3, TLSH := d3]) == ""
  {
  }
}

=== FILE: identifiers.dfy ===
/** Object identifiers: the text `<type>--<uuid>`.

    A random identifier takes a freshly generated UUID; a content-derived
    identifier of a cyber-observable object takes the name-based UUID of its
    value under the fixed observable namespace, so producers that describe
    the same value arrive at the same identifier. Both UUID sources are
    parameters here: the random one as a value, the name-based derivation as
    a function.
 */
module Identifiers {
  import opened GoStrings
  import opened Uuids
  import opened StixTypes

  const Separator: string := "--"

  /** A random identifier for type `typ`, given the generated UUID. */
  function NewIdentifier(typ: string, random: Uuid): (id: string)
    ensures HasPrefix(id, typ + Separator)
    ensures WellFormedTypeName(typ) ==> Split(id, Separator) == [typ, Uuids.ToString(random)]
  {
    ToStringHasNoSeparator(random);
    var id := typ + Separator + Uuids.ToString(random);
    assert id[..|typ + Separator|] == typ + Separator;
    if WellFormedTypeName(typ) then
      DoubleDashSplit(typ, Uuids.ToString(random));
      id
    else id
  }

  /** The content-derived identifier of an observable whose canonical value
      is `value`; `nameBased` stands for the SHA-1 name-based UUID
      derivation. The result depends on `value` and `typ` alone: it is the
      random form with the derived UUID in place of the random one. */
  function NewObservableIdentifier(value: string, typ: string, nameBased: (Uuid, string) -> Uuid): (id: string)
    ensures id == NewIdentifier(typ, nameBased(ObservableNamespace, value))
  {
    typ + Separator + Uuids.ToString(nameBased(ObservableNamespace, value))
  }

  /** Whether the identifier is for type `typ`: `typ` occurs at position 0,
      that is, the identifier starts with it. */
  function ForType(id: string, typ: string): (r: bool)
    ensures r <==> HasPrefix(id, typ)
  {
    var m := Index(id, typ);
    assert HasPrefix(id, typ) ==> OccursAt(id, typ, 0);
    m == 0
  }

  /** Whether the identifier is for any of the given types. */
  method ForTypes(id: string, types: seq<string>) returns (r: bool)
    ensures r <==> exists k :: 0 <= k < |types| && HasPrefix(id, types[k])
  {
    for k := 0 to |types|
      invariant forall j :: 0 <= j < k ==> !HasPrefix(id, types[j])
    {
      if ForType(id, types[k]) {
        return true;
      }
    }
    return false;
  }

  /** `id` splits into exactly `[a, b]` precisely when it is `a--b` with the
      first separator right after `a` and no separator in `b`. */
  lemma SplitTwoIff(id: string, a: string, b: string)
    ensures Split(id, Separator) == [a, b] <==>
      (id == a + Separator + b && NoDoubleDash(a) && !EndsWithDash(a) && NoDoubleDash(b))
  {
    NoDoubleDashIff(a);
    NoDoubleDashIff(b);
    if id == a + Separator + b && NoDoubleDash(a) && !EndsWithDash(a) && NoDoubleDash(b) {
      DoubleDashSplit(a, b);
    }
    if Split(id, Separator) == [a, b] {
      var parts := Split(id, Separator);
      assert parts[1..] == [b];
      assert id == a + Separator + b;
      if |a| > 0 {
        assert !OccursAt(id, Separator, |a| - 1);
        assert id[|a| - 1..|a| + 1] == [a[|a| - 1], '-'];
        assert a[|a| - 1] != '-';
      }
    }
  }

  /** The split test of the type check, stated on the text: a non-empty
      well-formed type name, then `--`, then a UUID text without `--`. */
  lemma TypeCheckOnText(id: string, typ: string)
    ensures (var parts := Split(id, Separator);
             |parts| == 2 && parts[0] == typ && parts[0] != "" && Uuids.IsValid(parts[1])) <==>
      && typ != ""
      && NoDoubleDash(typ) && !EndsWithDash(typ)
      && HasPrefix(id, typ + Separator)
      && NoDoubleDash(id[|typ| + 2..])
      && Uuids.IsValid(id[|typ| + 2..])
  {
    if HasPrefix(id, typ + Separator) {
      var rest := id[|typ| + 2..];
      assert id == typ + Separator + rest;
      SplitTwoIff(id, typ, rest);
    }
    var parts := Split(id, Separator);
    if |parts| == 2 && parts[0] == typ && parts[0] != "" && Uuids.IsValid(parts[1]) {
      SplitTwoIff(id, parts[0], parts[1]);
      assert id[..|typ| + 2] == typ + Separator;
      assert id[|typ| + 2..] == parts[1];
    }
  }

  /** The split test of the format check, stated on the text: the part
      after the first `--` holds no further separator and is a UUID text. */
  lemma FormatCheckOnText(id: string)
    ensures (var parts := Split(id, Separator); |parts| == 2 && Uuids.IsValid(parts[1])) <==>
      var m := Index(id, Separator);
      m >= 0 && NoDoubleDash(id[m + 2..]) && Uuids.IsValid(id[m + 2..])
  {
    var m := Index(id, Separator);
    if m >= 0 {
      var rest := id[m + 2..];
      assert Split(id, Separator) == [id[..m]] + Split(rest, Separator);
      NoDoubleDashIff(rest);
      if NoDoubleDash(rest) {
        assert Split(rest, Separator) == [rest] by {
          assert Join(Split(rest, Separator), Separator) == rest;
        }
      }
    }
  }

  /** The check of an object's identifier against its declared type `typ`:
      exactly two parts around `--`, the first equal to `typ` and non-empty,
      the second a UUID the parser accepts. On the text, that is a non-empty
      well-formed type name, `--`, and a UUID text without `--`. */
  function HasValidIdentifier(id: string, typ: string): (r: bool)
    ensures r <==>
      && typ != ""
      && NoDoubleDash(typ) && !EndsWithDash(typ)
      && HasPrefix(id, typ + Separator)
      && NoDoubleDash(id[|typ| + 2..])
      && Uuids.IsValid(id[|typ| + 2..])
  {
    TypeCheckOnText(id, typ);
    var parts := Split(id, Separator);
    if |parts| != 2 then false
    else if parts[0] != typ then false
    else if parts[0] == "" then false
    else Uuids.IsValid(parts[1])
  }

  /** The format check of a bare identifier: exactly two parts around `--`
      and a UUID after them; the type part is not inspected. On the text,
      `--` occurs and what follows its first occurrence is a UUID text
      without `--`. */
  function IsValidIdentifier(id: string): (r: bool)
    ensures r <==>
      var m := Index(id, Separator);
      m >= 0 && NoDoubleDash(id[m + 2..]) && Uuids.IsValid(id[m + 2..])
  {
    FormatCheckOnText(id);
    var parts := Split(id, Separator);
    if |parts| != 2 then false
    else Uuids.IsValid(parts[1])
  }

  /** Every identifier the type check accepts passes the format check. */
  lemma HasValidImpliesIsValid(id: string, typ: string)
    ensures HasValidIdentifier(id, typ) ==> IsValidIdentifier(id)
  {
  }

  /** The format check accepts an empty type part, which the type check
      rejects whatever the declared type. */
  lemma EmptyTypePartAccepted(u: Uuid, typ: string)
    ensures IsValidIdentifier(Separator + Uuids.ToString(u))
    ensures !HasValidIdentifier(Separator + Uuids.ToString(u), typ)
  {
    ToStringHasNoSeparator(u);
    ParseToString(u);
    DoubleDashSplit("", Uuids.ToString(u));
    assert "" + Separator + Uuids.ToString(u) == Separator + Uuids.ToString(u);
  }

  /** A random identifier of any type in the table passes the type check,
      the format check and the prefix match for its type. */
  lemma NewIdentifierValid(typ: string, random: Uuid)
    requires typ in AllTypes
    ensures HasValidIdentifier(NewIdentifier(typ, random), typ)
    ensures IsValidIdentifier(NewIdentifier(typ, random))
    ensures ForType(NewIdentifier(typ, random), typ)
  {
    AllTypesWellFormed();
    ParseToString(random);
  }

  /** The identifier determines its type and its UUID, whatever the type
      name: the UUID text has a fixed length, so two identifiers agree
      exactly when both parts agree. */
  lemma NewIdentifierInjective(t1: string, u1: Uuid, t2: string, u2: Uuid)
    ensures NewIdentifier(t1, u1) == NewIdentifier(t2, u2) <==> t1 == t2 && u1 == u2
  {
    var id1, id2 := NewIdentifier(t1, u1), NewIdentifier(t2, u2);
    if id1 == id2 {
      var s1, s2 := Uuids.ToString(u1), Uuids.ToString(u2);
      assert |t1| == |t2|;
      assert t1 == id1[..|t1|] && t2 == id2[..|t2|];
      assert s1 == id1[|t1| + 2..] && s2 == id2[|t2| + 2..];
      ToStringInjective(u1, u2);
    }
  }

  /** Content-derived identifiers, of any types, coincide exactly when the
      types agree and the derivation maps both values to the same UUID; in
      particular equal inputs always give equal identifiers. */
  lemma ObservableIdentifierIff(v1: string, t1: string, v2: string, t2: string, nameBased: (Uuid, string) -> Uuid)
    ensures NewObservableIdentifier(v1, t1, nameBased) == NewObservableIdentifier(v2, t2, nameBased) <==>
      t1 == t2 && nameBased(ObservableNamespace, v1) == nameBased(ObservableNamespace, v2)
  {
    NewIdentifierInjective(t1, nameBased(ObservableNamespace, v1), t2, nameBased(ObservableNamespace, v2));
  }

  /** The empty type matches every identifier. */
  lemma EmptyTypeMatchesAll(id: string)
    ensures ForType(id, "")
  {
  }

  /** The prefix match is not a type match: a malware-analysis identifier
      is also "for" the malware type, though it fails the malware type
      check. */
  lemma MalwareAnalysisMatchesMalware(u: Uuid)
    ensures ForType(NewIdentifier(TypeMalwareAnalysis, u), TypeMalware)
    ensures !HasValidIdentifier(NewIdentifier(TypeMalwareAnalysis, u), TypeMalware)
  {
    var id := NewIdentifier(TypeMalwareAnalysis, u);
    assert id[..|TypeMalwareAnalysis|] == TypeMalwareAnalysis;
    assert id[..|TypeMalware|] == TypeMalware;
    assert id[8] == TypeMalwareAnalysis[8] == 'a';
    assert (TypeMalware + Separator)[8] == '-';
  }
}

=== FILE: numerals.dfy ===
/** Fixed-width decimal and hexadecimal digit strings, as written by Go's
    time formatting (zero-padded decimal fields) and by UUID text
    (lower-case hexadecimal, either case accepted on input).
 */
module Numerals {

  /** An octet; Go's `byte`. */
  type uint8 = x: int | 0 <= x < 256

  predicate IsDigit(c: char) {
    '0' <= c <= '9'
  }

  predicate AllDigits(s: string) {
    forall i :: 0 <= i < |s| ==> IsDigit(s[i])
  }

  function DigitChar(d: nat): (c: char)
    requires d < 10
    ensures IsDigit(c) && c as int - '0' as int == d
  {
    ('0' as int + d) as char
  }

  function Pow10(n: nat): (p: nat)
    ensures p >= 1
  {
    if n == 0 then 1 else 10 * Pow10(n - 1)
  }

  /** The value of a string of decimal digits, most significant first. */
  function DecimalValue(s: string): (n: nat)
    requires AllDigits(s)
    ensures n < Pow10(|s|)
  {
    if |s| == 0 then 0
    else DecimalValue(s[..|s| - 1]) * 10 + (s[|s| - 1] as int - '0' as int)
  }

  /** `n` written with exactly `width` decimal digits, zero-padded on the
      left, as Go's time formatting writes a fixed-width field. */
  function PadDecimal(n: nat, width: nat): (s: string)
    requires n < Pow10(width)
    ensures |s| == width && AllDigits(s)
  {
    if width == 0 then ""
    else PadDecimal(n / 10, width - 1) + [DigitChar(n % 10)]
  }

  /** Reading a padded field gives back the number. */
  lemma {:induction false} PadDecimalValue(n: nat, width: nat)
    requires n < Pow10(width)
    ensures DecimalValue(PadDecimal(n, width)) == n
  {
    if width > 0 {
      var s := PadDecimal(n, width);
      PadDecimalValue(n / 10, width - 1);
      assert s[..|s| - 1] == PadDecimal(n / 10, width - 1);
    }
  }

  /** `n` in decimal without leading zeros, as `strconv` writes an
      unsigned integer. */
  function DecimalText(n: nat): (s: string)
    ensures |s| >= 1 && AllDigits(s)
    ensures s[0] == '0' <==> n == 0
    decreases n
  {
    if n < 10 then [DigitChar(n)]
    else DecimalText(n / 10) + [DigitChar(n % 10)]
  }

  /** Decimal digits with no leading zero, or the single digit `0`. */
  predicate IsCanonicalDecimal(s: string) {
    |s| >= 1 && AllDigits(s) && (s[0] == '0' ==> |s| == 1)
  }

  /** Reading the decimal text gives back the number. */
  lemma {:induction false} DecimalTextValue(n: nat)
    ensures DecimalValue(DecimalText(n)) == n
    decreases n
  {
    if n >= 10 {
      var s := DecimalText(n);
      DecimalTextValue(n / 10);
      assert s[..|s| - 1] == DecimalText(n / 10);
    }
  }

  /** Digits led by a non-zero digit have a positive value. */
  lemma {:induction false} LeadingDigitPositive(s: string)
    requires |s| >= 1 && AllDigits(s) && s[0] != '0'
    ensures DecimalValue(s) >= 1
    decreases |s|
  {
    if |s| > 1 {
      LeadingDigitPositive(s[..|s| - 1]);
    }
  }

  /** The canonical decimal texts are exactly the texts `DecimalText`
      writes: each is the text of its own value. */
  lemma {:induction false} DecimalTextOfValue(s: string)
    requires IsCanonicalDecimal(s)
    ensures DecimalText(DecimalValue(s)) == s
    decreases |s|
  {
    if |s| > 1 {
      var p := s[..|s| - 1];
      LeadingDigitPositive(p);
      DecimalTextOfValue(p);
      assert s == p + [s[|s| - 1]];
    }
  }

  predicate IsHexDigit(c: char) {
    ('0' <= c <= '9') || ('a' <= c <= 'f') || ('A' <= c <= 'F')
  }

  /** The value of a hexadecimal digit of either case. */
  function HexValue(c: char): (v: nat)
    requires IsHexDigit(c)
    ensures v < 16
  {
    if '0' <= c <= '9' then c as int - '0' as int
    else if 'a' <= c <= 'f' then c as int - 'a' as int + 10
    else c as int - 'A' as int + 10
  }

  predicate IsLowerHexDigit(c: char) {
    ('0' <= c <= '9') || ('a' <= c <= 'f')
  }

  /** The lower-case hexadecimal digit for `d`; `HexValue` inverts it. */
  function HexChar(d: nat): (c: char)
    requires d < 16
    ensures IsLowerHexDigit(c) && IsHexDigit(c)
    ensures HexValue(c) == d
  {
    if d < 10 then ('0' as int + d) as char else ('a' as int + d - 10) as char
  }

  /** On lower-case digits `HexChar` also inverts `HexValue`. */
  lemma HexCharOfValue(c: char)
    requires IsLowerHexDigit(c)
    ensures HexChar(HexValue(c)) == c
  {
  }
}

=== FILE: properties.dfy ===
/** Two common property types with checking constructors: external
    references (pointers to information kept outside the data set) and kill
    chain phases.
 */
module Properties {
  import opened Results
  import opened Hashes

  datatype ExternalReference = ExternalReference(
    name: string,
    description: string,
    url: string,
    hashes: Hashes,
    externalId: string)

  /** A reference names its source and says something about the content: a
      description, a URL or an external identifier. */
  predicate ValidExternalReference(e: ExternalReference) {
    e.name != "" && (e.description != "" || e.url != "" || e.externalId != "")
  }

  /** Builds a reference from its parts; fails with `PropertyMissing` when
      the source name is empty or none of description, URL and external
      identifier is given. The parts are stored as given. */
  function NewExternalReference(name: string, description: string, url: string, externalId: string, hashes: Hashes)
    : (r: Result<ExternalReference>)
    ensures r.Err? <==> name == "" || (description == "" && url == "" && externalId == "")
    ensures r.Err? ==> r.error == PropertyMissing
    ensures r.Ok? ==> ValidExternalReference(r.value)
    ensures r.Ok? ==>
      && r.value.name == name && r.value.description == description && r.value.url == url
      && r.value.externalId == externalId && r.value.hashes == hashes
  {
    if name == "" then Err(PropertyMissing)
    else if description == "" && url == "" && externalId == "" then Err(PropertyMissing)
    else Ok(ExternalReference(name, description, url, hashes, externalId))
  }

  /** The constructor accepts the parts of a reference exactly when the
      reference is valid, and then rebuilds that very reference. */
  lemma ExternalReferenceRebuilt(e: ExternalReference)
    ensures NewExternalReference(e.name, e.description, e.url, e.externalId, e.hashes) == Ok(e)
      <==> ValidExternalReference(e)
  {
  }

  /** A phase of a named kill chain. */
  datatype KillChainPhase = KillChainPhase(name: string, phase: string)

  /** The kill chain name of the Lockheed Martin Cyber Kill Chain. */
  const LockheedMartinCyberKillChain: string := "lockheed-martin-cyber-kill-chain"

  predicate ValidKillChainPhase(k: KillChainPhase) {
    k.name != "" && k.phase != ""
  }

  /** Builds a phase; both the chain name and the phase name are required. */
  function NewKillChainPhase(name: string, phase: string): (r: Result<KillChainPhase>)
    ensures r.Err? <==> name == "" || phase == ""
    ensures r.Err? ==> r.error == PropertyMissing
    ensures r.Ok? ==> ValidKillChainPhase(r.value) && r.value.name == name && r.value.phase == phase
  {
    if name == "" || phase == "" then Err(PropertyMissing)
    else Ok(KillChainPhase(name, phase))
  }

  /** The constructor accepts the parts of a phase exactly when the phase is
      valid, and then rebuilds that very phase. */
  lemma KillChainPhaseRebuilt(k: KillChainPhase)
    ensures NewKillChainPhase(k.name, k.phase) == Ok(k) <==> ValidKillChainPhase(k)
  {
  }
}

=== FILE: results.dfy ===
/** Failure-compatible return types shared by every module of the model.

    Go functions in the library return `(value, error)`; the model returns a
    `Result` that carries either the value or one of the error kinds below.
 */
module Results {

  /** The error kinds the modelled operations can report. */
  datatype Error =
    | PropertyMissing     // a required property is empty (ErrPropertyMissing)
    | MalformedBase64     // the text is not padded standard base64
    | MalformedJson       // the JSON value cannot be decoded into bytes
    | MalformedTimestamp  // the text is not an RFC 3339 date-time

  datatype Result<+T> = Ok(value: T) | Err(error: Error) {

    predicate IsFailure() {
      Err?
    }

    function PropagateFailure<U>(): Result<U>
      requires Err?
    {
      Err(error)
    }

    function Extract(): T
      requires Ok?
    {
      value
    }
  }

  /** An optional value, for checks that either yield a value or reject
      the input without saying why. */
  datatype Option<+T> = None | Some(value: T)
}

=== FILE: stixtypes.dfy ===
/** The closed vocabulary of object type names. Every identifier starts with
    one of them; the table of all types is what producers and consumers
    dispatch on.
 */
module StixTypes {
  import opened GoStrings

  const TypeAutonomousSystem: string := "autonomous-system"
  const TypeArtifact: string := "artifact"
  const TypeAttackPattern: string := "attack-pattern"
  const TypeBundle: string := "bundle"
  const TypeCampaign: string := "campaign"
  const TypeCourseOfAction: string := "course-of-action"
  const TypeDirectory: string := "directory"
  const TypeDomainName: string := "domain-name"
  const TypeEmailAddress: string := "email-addr"
  const TypeEmailMIME: string := "mime-part-type"
  const TypeEmailMessage: string := "email-message"
  const TypeExtensionDefinition: string := "extension-definition"
  const TypeFile: string := "file"
  const TypeGrouping: string := "grouping"
  const TypeIPv4Addr: string := "ipv4-addr"
  const TypeIPv6Addr: string := "ipv6-addr"
  const TypeIdentity: string := "identity"
  const TypeIndicator: string := "indicator"
  const TypeInfrastructure: string := "infrastructure"
  const TypeIntrusionSet: string := "intrusion-set"
  const TypeLanguageContent: string := "language-content"
  const TypeLocation: string := "location"
  const TypeMACAddress: string := "mac-addr"
  const TypeMalware: string := "malware"
  const TypeMalwareAnalysis: string := "malware-analysis"
  const TypeMarkingDefinition: string := "marking-definition"
  const TypeMutex: string := "mutex"
  const TypeNetworkTraffic: string := "network-traffic"
  const TypeNote: string := "note"
  const TypeObservedData: string := "observed-data"
  const TypeOpinion: string := "opinion"
  const TypeProcess: string := "process"
  const TypeRegistryKey: string := "windows-registry-key"
  const TypeRelationship: string := "relationship"
  const TypeReport: string := "report"
  const TypeSighting: string := "sighting"
  const TypeSoftware: string := "software"
  const TypeThreatActor: string := "threat-actor"
  const TypeTool: string := "tool"
  const TypeURL: string := "url"
  const TypeUserAccount: string := "user-account"
  const TypeVulnerability: string := "vulnerability"
  const TypeX509Certificate: string := "x509-certificate"

  /** Every type name of the vocabulary except the bundle envelope's. */
  const AllTypes: seq<string> := [
    TypeAutonomousSystem,
    TypeArtifact,
    TypeAttackPattern,
    TypeCampaign,
    TypeCourseOfAction,
    TypeDirectory,
    TypeDomainName,
    TypeEmailAddress,
    TypeEmailMIME,
    TypeEmailMessage,
    TypeExtensionDefinition,
    TypeFile,
    TypeGrouping,
    TypeIPv4Addr,
    TypeIPv6Addr,
    TypeIdentity,
    TypeIndicator,
    TypeInfrastructure,
    TypeIntrusionSet,
    TypeLanguageContent,
    TypeLocation,
    TypeMACAddress,
    TypeMalware,
    TypeMalwareAnalysis,
    TypeMarkingDefinition,
    TypeMutex,
    TypeNetworkTraffic,
    TypeNote,
    TypeObservedData,
    TypeOpinion,
    TypeProcess,
    TypeRegistryKey,
    TypeRelationship,
    TypeReport,
    TypeSighting,
    TypeSoftware,
    TypeThreatActor,
    TypeTool,
    TypeURL,
    TypeUserAccount,
    TypeVulnerability,
    TypeX509Certificate
  ]

  /** A type name is non-empty, never holds the identifier separator `--`
      and does not end in a dash, so the separator after it is found where
      it was placed. */
  predicate WellFormedTypeName(t: string) {
    && |t| > 0
    && NoDoubleDash(t)
    && !EndsWithDash(t)
  }

  /** The position of `t` in the table, or -1: a lookup the distinctness
      proof goes through. */
  function TablePosition(t: string): int
  {
    if t == TypeAutonomousSystem then 0
    else if t == TypeArtifact then 1
    else if t == TypeAttackPattern then 2
    else if t == TypeCampaign then 3
    else if t == TypeCourseOfAction then 4
    else if t == TypeDirectory then 5
    else if t == TypeDomainName then 6
    else if t == TypeEmailAddress then 7
    else if t == TypeEmailMIME then 8
    else if t == TypeEmailMessage then 9
    else if t == TypeExtensionDefinition then 10
    else if t == TypeFile then 11
    else if t == TypeGrouping then 12
    else if t == TypeIPv4Addr then 13
    else if t == TypeIPv6Addr then 14
    else if t == TypeIdentity then 15
    else if t == TypeIndicator then 16
    else if t == TypeInfrastructure then 17
    else if t == TypeIntrusionSet then 18
    else if t == TypeLanguageContent then 19
    else if t == TypeLocation then 20
    else if t == TypeMACAddress then 21
    else if t == TypeMalware then 22
    else if t == TypeMalwareAnalysis then 23
    else if t == TypeMarkingDefinition then 24
    else if t == TypeMutex then 25
    else if t == TypeNetworkTraffic then 26
    else if t == TypeNote then 27
    else if t == TypeObservedData then 28
    else if t == TypeOpinion then 29
    else if t == TypeProcess then 30
    else if t == TypeRegistryKey then 31
    else if t == TypeRelationship then 32
    else if t == TypeReport then 33
    else if t == TypeSighting then 34
    else if t == TypeSoftware then 35
    else if t == TypeThreatActor then 36
    else if t == TypeTool then 37
    else if t == TypeURL then 38
    else if t == TypeUserAccount then 39
    else if t == TypeVulnerability then 40
    else if t == TypeX509Certificate then 41
    else -1
  }

  lemma WellFormedFrom0()
    ensures forall i :: 0 <= i < 4 ==> WellFormedTypeName(AllTypes[i])
  {
    forall i | 0 <= i < 4
      ensures WellFormedTypeName(AllTypes[i])
    {
      assert i == 0 || i == 1 || i == 2 || i == 3;
    }
  }

  lemma WellFormedFrom4()
    ensures forall i :: 4 <= i < 8 ==> WellFormedTypeName(AllTypes[i])
  {
    forall i | 4 <= i < 8
      ensures WellFormedTypeName(AllTypes[i])
    {
      assert i == 4 || i == 5 || i == 6 || i == 7;
    }
  }

  lemma WellFormedFrom8()
    ensures forall i :: 8 <= i < 12 ==> WellFormedTypeName(AllTypes[i])
  {
    forall i | 8 <= i < 12
      ensures WellFormedTypeName(AllTypes[i])
    {
      assert i == 8 || i == 9 || i == 10 || i == 11;
    }
  }

  lemma WellFormedFrom12()
    ensures forall i :: 12 <= i < 16 ==> WellFormedTypeName(AllTypes[i])
  {
    forall i | 12 <= i < 16
      ensures WellFormedTypeName(AllTypes[i])
    {
      assert i == 12 || i == 13 || i == 14 || i == 15;
    }
  }

  lemma WellFormedFrom16()
    ensures forall i :: 16 <= i < 20 ==> WellFormedTypeName(AllTypes[i])
  {
    forall i | 16 <= i < 20
      ensures WellFormedTypeName(AllTypes[i])
    {
      assert i == 16 || i == 17 || i == 18 || i == 19;
    }
  }

  lemma WellFormedFrom20()
    ensures forall i :: 20 <= i < 24 ==> WellFormedTypeName(AllTypes[i])
  {
    forall i | 20 <= i < 24
      ensures WellFormedTypeName(AllTypes[i])
    {
      assert i == 20 || i == 21 || i == 22 || i == 23;
    }
  }

  lemma WellFormedFrom24()
    ensures forall i :: 24 <= i < 28 ==> WellFormedTypeName(AllTypes[i])
  {
    forall i | 24 <= i < 28
      ensures WellFormedTypeName(AllTypes[i])
    {
      assert i == 24 || i == 25 || i == 26 || i == 27;
    }
  }

  lemma WellFormedFrom28()
    ensures forall i :: 28 <= i < 32 ==> WellFormedTypeName(AllTypes[i])
  {
    forall i | 28 <= i < 32
      ensures WellFormedTypeName(AllTypes[i])
    {
      assert i == 28 || i == 29 || i == 30 || i == 31;
    }
  }

  lemma WellFormedFrom32()
    ensures forall i :: 32 <= i < 36 ==> WellFormedTypeName(AllTypes[i])
  {
    forall i | 32 <= i < 36
      ensures WellFormedTypeName(AllTypes[i])
    {
      assert i == 32 || i == 33 || i == 34 || i == 35;
    }
  }

  lemma WellFormedFrom36()
    ensures forall i :: 36 <= i < 40 ==> WellFormedTypeName(AllTypes[i])
  {
    forall i | 36 <= i < 40
      ensures WellFormedTypeName(AllTypes[i])
    {
      assert i == 36 || i == 37 || i == 38 || i == 39;
    }
  }

  lemma WellFormedFrom40()
    ensures forall i :: 40 <= i < 42 ==> WellFormedTypeName(AllTypes[i])
  {
    forall i | 40 <= i < 42
      ensures WellFormedTypeName(AllTypes[i])
    {
      assert i == 40 || i == 41;
    }
  }

  lemma PositionFrom0()
    ensures forall i :: 0 <= i < 6 ==> TablePosition(AllTypes[i]) == i
  {
    forall i | 0 <= i < 6
      ensures TablePosition(AllTypes[i]) == i
    {
      assert i == 0 || i == 1 || i == 2 || i == 3 || i == 4 || i == 5;
    }
  }

  lemma PositionFrom6()
    ensures forall i :: 6 <= i < 12 ==> TablePosition(AllTypes[i]) == i
  {
    forall i | 6 <= i < 12
      ensures TablePosition(AllTypes[i]) == i
    {
      assert i == 6 || i == 7 || i == 8 || i == 9 || i == 10 || i == 11;
    }
  }

  lemma PositionFrom12()
    ensures forall i :: 12 <= i < 18 ==> TablePosition(AllTypes[i]) == i
  {
    forall i | 12 <= i < 18
      ensures TablePosition(AllTypes[i]) == i
    {
      assert i == 12 || i == 13 || i == 14 || i == 15 || i == 16 || i == 17;
    }
  }

  lemma PositionFrom18()
    ensures forall i :: 18 <= i < 24 ==> TablePosition(AllTypes[i]) == i
  {
    forall i | 18 <= i < 24
      ensures TablePosition(AllTypes[i]) == i
    {
      assert i == 18 || i == 19 || i == 20 || i == 21 || i == 22 || i == 23;
    }
  }

  lemma PositionFrom24()
    ensures forall i :: 24 <= i < 30 ==> TablePosition(AllTypes[i]) == i
  {
    forall i | 24 <= i < 30
      ensures TablePosition(AllTypes[i]) == i
    {
      assert i == 24 || i == 25 || i == 26 || i == 27 || i == 28 || i == 29;
    }
  }

  lemma PositionFrom30()
    ensures forall i :: 30 <= i < 36 ==> TablePosition(AllTypes[i]) == i
  {
    forall i | 30 <= i < 36
      ensures TablePosition(AllTypes[i]) == i
    {
      assert i == 30 || i == 31 || i == 32 || i == 33 || i == 34 || i == 35;
    }
  }

  lemma PositionFrom36()
    ensures forall i :: 36 <= i < 42 ==> TablePosition(AllTypes[i]) == i
  {
    forall i | 36 <= i < 42
      ensures TablePosition(AllTypes[i]) == i
    {
      assert i == 36 || i == 37 || i == 38 || i == 39 || i == 40 || i == 41;
    }
  }

  /** Every name in the table is well formed. */
  lemma AllTypesWellFormed()
    ensures forall i :: 0 <= i < |AllTypes| ==> WellFormedTypeName(AllTypes[i])
  {
    WellFormedFrom0();
    WellFormedFrom4();
    WellFormedFrom8();
    WellFormedFrom12();
    WellFormedFrom16();
    WellFormedFrom20();
    WellFormedFrom24();
    WellFormedFrom28();
    WellFormedFrom32();
    WellFormedFrom36();
    WellFormedFrom40();
  }

  /** Every name sits at its own position of the table. */
  lemma TablePositions()
    ensures forall i :: 0 <= i < |AllTypes| ==> TablePosition(AllTypes[i]) == i
  {
    PositionFrom0();
    PositionFrom6();
    PositionFrom12();
    PositionFrom18();
    PositionFrom24();
    PositionFrom30();
    PositionFrom36();
  }

  /** The table lists 42 pairwise distinct names. */
  lemma AllTypesDistinct()
    ensures |AllTypes| == 42
    ensures forall i, j :: 0 <= i < j < |AllTypes| ==> AllTypes[i] != AllTypes[j]
  {
    TablePositions();
  }

  /** The bundle envelope's type is declared but is not in the table. */
  lemma BundleNotInAllTypes()
    ensures TypeBundle !in AllTypes
  {
    assert TablePosition(TypeBundle) == -1;
    TablePositions();
  }
}

=== FILE: timestamps.dfy ===
/** RFC 3339 timestamps (section 5.6 of RFC 3339) as the data set writes and
    reads them.

    A timestamp is a wall-clock reading in a zone with a fixed offset from
    UTC. Its text always has exactly three fraction digits (milliseconds,
    truncated) and writes the zone as `Z` for UTC or as `+hh:mm`/`-hh:mm`.
    Reading follows Go's RFC 3339 fast path: four-digit year, two-digit
    fields with range checks, an optional fraction of one or more digits of
    which the first nine count, then `Z` or a numeric offset.
 */
module Timestamps {
  import opened Results
  import opened Numerals

  /** Wall-clock fields and the zone offset in minutes east of UTC. */
  datatype Timestamp = Timestamp(
    year: nat,
    month: nat,
    day: nat,
    hour: nat,
    minute: nat,
    second: nat,
    nanos: nat,
    offset: int)

  predicate IsLeap(year: nat) {
    year % 4 == 0 && (year % 100 != 0 || year % 400 == 0)
  }

  /** The number of days in a month of the proleptic Gregorian calendar. */
  function DaysIn(month: nat, year: nat): (d: nat)
    requires 1 <= month <= 12
    ensures 28 <= d <= 31
    ensures d == 29 <==> month == 2 && IsLeap(year)
  {
    if month == 2 then (if IsLeap(year) then 29 else 28)
    else if month == 4 || month == 6 || month == 9 || month == 11 then 30
    else 31
  }

  /** The largest offset the numeric zone `hh:mm` can express. */
  const MaxOffset: int := 23 * 60 + 59

  const NanosPerSecond: nat := 1_000_000_000
  const NanosPerMilli: nat := 1_000_000

  /** The timestamps the text form can express. */
  predicate Valid(t: Timestamp) {
    && t.year <= 9999
    && 1 <= t.month <= 12
    && 1 <= t.day <= DaysIn(t.month, t.year)
    && t.hour < 24 && t.minute < 60 && t.second < 60
    && t.nanos < NanosPerSecond
    && -MaxOffset <= t.offset <= MaxOffset
  }

  /** The timestamp with its sub-millisecond part dropped. */
  function Truncate(t: Timestamp): (u: Timestamp)
    ensures u.nanos % NanosPerMilli == 0 && u.nanos <= t.nanos < u.nanos + NanosPerMilli
    ensures u.(nanos := t.nanos) == t
  {
    t.(nanos := t.nanos / NanosPerMilli * NanosPerMilli)
  }

  // ---------------------------------------------------------------------
  // Formatting
  // ---------------------------------------------------------------------

  /** `YYYY-MM-DD`. */
  function DateText(t: Timestamp): (d: string)
    requires Valid(t)
    ensures |d| == 10
  {
    PadDecimal(t.year, 4) + "-" + PadDecimal(t.month, 2) + "-" + PadDecimal(t.day, 2)
  }

  /** `hh:mm:ss`. */
  function TimeText(t: Timestamp): (d: string)
    requires Valid(t)
    ensures |d| == 8
  {
    PadDecimal(t.hour, 2) + ":" + PadDecimal(t.minute, 2) + ":" + PadDecimal(t.second, 2)
  }

  /** `YYYY-MM-DDThh:mm:ss`. */
  function DateTimeText(t: Timestamp): (d: string)
    requires Valid(t)
    ensures |d| == 19
  {
    DateText(t) + "T" + TimeText(t)
  }

  /** `.mmm`: the milliseconds, truncated, always three digits. */
  function FractionText(nanos: nat): (f: string)
    requires nanos < NanosPerSecond
    ensures |f| == 4
  {
    "." + PadDecimal(nanos / NanosPerMilli, 3)
  }

  /** `Z` for UTC, otherwise the sign and the offset as `hh:mm`. */
  function ZoneText(offset: int): (z: string)
    requires -MaxOffset <= offset <= MaxOffset
    ensures |z| == if offset == 0 then 1 else 6
    ensures !IsDigit(z[0])
  {
    if offset == 0 then "Z"
    else
      var a := if offset < 0 then -offset else offset;
      [if offset < 0 then '-' else '+'] + PadDecimal(a / 60, 2) + ":" + PadDecimal(a % 60, 2)
  }

  /** The text form `YYYY-MM-DDThh:mm:ss.mmm` followed by the zone. */
  function String(t: Timestamp): (s: string)
    requires Valid(t)
    ensures |s| == if t.offset == 0 then 24 else 29
    ensures s[19] == '.' && (s[|s| - 1] == 'Z' <==> t.offset == 0)
  {
    DateTimeText(t) + FractionText(t.nanos) + ZoneText(t.offset)
  }

  // ---------------------------------------------------------------------
  // Parsing
  // ---------------------------------------------------------------------

  /** A fixed-width decimal field: all digits, value within `[lo, hi]`. */
  function Field(s: string, lo: nat, hi: nat): (r: Result<nat>)
    ensures r.Ok? ==> lo <= r.value <= hi
    ensures r.Ok? <==> AllDigits(s) && lo <= DecimalValue(s) <= hi
  {
    if AllDigits(s) && lo <= DecimalValue(s) <= hi then Ok(DecimalValue(s)) else Err(MalformedTimestamp)
  }

  /** The end of the run of digits starting at `i`. */
  function DigitRunEnd(s: string, i: nat): (n: nat)
    requires i <= |s|
    ensures i <= n <= |s|
    ensures forall k :: i <= k < n ==> IsDigit(s[k])
    ensures n < |s| ==> !IsDigit(s[n])
    decreases |s| - i
  {
    if i < |s| && IsDigit(s[i]) then DigitRunEnd(s, i + 1) else i
  }

  lemma Pow10Add(a: nat, b: nat)
    ensures Pow10(a + b) == Pow10(a) * Pow10(b)
  {
    if a > 0 {
      Pow10Add(a - 1, b);
    }
  }

  lemma ScaledBelow(x: nat, p: nat, q: nat)
    requires x < p && q > 0
    ensures x * q < p * q
  {
  }

  lemma Pow10Nine()
    ensures Pow10(9) == NanosPerSecond && Pow10(6) == NanosPerMilli
  {
    assert Pow10(3) == 1000;
    assert Pow10(6) == 1000 * Pow10(3) by {
      Pow10Add(3, 3);
    }
    Pow10Add(6, 3);
  }

  /** Up to nine digits scaled to nine places stay below a second. */
  lemma FractionBelowSecond(v: nat, k: nat)
    requires k <= 9 && v < Pow10(k)
    ensures v * Pow10(9 - k) < NanosPerSecond
  {
    Pow10Add(k, 9 - k);
    ScaledBelow(v, Pow10(k), Pow10(9 - k));
    Pow10Nine();
  }

  /** Scaling a k-digit fraction value up to nine digits and then by the
      k-th power of ten gives the value times a second. */
  lemma FractionScaled(v: nat, k: nat)
    requires k <= 9
    ensures (v * Pow10(9 - k)) * Pow10(k) == v * NanosPerSecond
  {
    Pow10Add(9 - k, k);
    Pow10Nine();
    MulAssoc(v, Pow10(9 - k), Pow10(k));
  }

  lemma MulAssoc(a: nat, b: nat, c: nat)
    ensures (a * b) * c == a * (b * c)
  {
  }

  /** The nanoseconds of a run of fraction digits: the first nine digits,
      scaled up when fewer are given; later digits are dropped. Read as a
      fraction of a second, the result equals the digits read (up to the
      ninth) as a fraction of a second. */
  function FractionNanos(digits: string): (ns: nat)
    requires AllDigits(digits)
    ensures ns < NanosPerSecond
    ensures |digits| <= 9 ==>
      ns * Pow10(|digits|) == DecimalValue(digits) * NanosPerSecond
    ensures |digits| > 9 ==>
      ns * Pow10(9) == DecimalValue(digits[..9]) * NanosPerSecond
  {
    var k := if |digits| > 9 then 9 else |digits|;
    var v := DecimalValue(digits[..k]);
    FractionBelowSecond(v, k);
    FractionScaled(v, k);
    assert k == |digits| ==> digits[..k] == digits;
    v * Pow10(9 - k)
  }

  /** The optional fraction after the seconds: a dot and at least one digit.
      Returns the nanoseconds and the text after the fraction. */
  function ParseFraction(s: string): (r: (nat, string))
    ensures r.0 < NanosPerSecond
    ensures r.1 == s || (|r.1| < |s| && r.1 == s[|s| - |r.1|..])
  {
    if |s| >= 2 && s[0] == '.' && IsDigit(s[1]) then
      var n := DigitRunEnd(s, 2);
      (FractionNanos(s[1..n]), s[n..])
    else (0, s)
  }

  /** The zone: `Z`, or a sign, two hour digits up to 23, a colon and two
      minute digits up to 59. */
  function ParseZone(s: string): (r: Result<int>)
    ensures r.Ok? ==> -MaxOffset <= r.value <= MaxOffset
    ensures r.Ok? <==>
      || s == "Z"
      || (&& |s| == 6 && (s[0] == '+' || s[0] == '-') && s[3] == ':'
          && Field(s[1..3], 0, 23).Ok? && Field(s[4..6], 0, 59).Ok?)
  {
    if s == "Z" then Ok(0)
    else if |s| != 6 then Err(MalformedTimestamp)
    else
      var hr :- Field(s[1..3], 0, 23);
      var mm :- Field(s[4..6], 0, 59);
      if !((s[0] == '-' || s[0] == '+') && s[3] == ':') then Err(MalformedTimestamp)
      else if s[0] == '-' then Ok(-(hr * 60 + mm))
      else Ok(hr * 60 + mm)
  }

  /** Go's RFC 3339 parser for the layout with optional nanoseconds: the
      fixed 19-character date and time, range-checked field by field (the
      day against the month's length in that year), then the fraction and
      the zone. */
  function Parse(s: string): (r: Result<Timestamp>)
    ensures r.Ok? ==> Valid(r.value)
    ensures |s| < 19 ==> r.Err?
  {
    if |s| < 19 then Err(MalformedTimestamp)
    else
      var year :- Field(s[0..4], 0, 9999);
      var month :- Field(s[5..7], 1, 12);
      var day :- Field(s[8..10], 1, DaysIn(month, year));
      var hour :- Field(s[11..13], 0, 23);
      var minute :- Field(s[14..16], 0, 59);
      var second :- Field(s[17..19], 0, 59);
      if !(s[4] == '-' && s[7] == '-' && s[10] == 'T' && s[13] == ':' && s[16] == ':') then
        Err(MalformedTimestamp)
      else
        var fraction := ParseFraction(s[19..]);
        var offset :- ParseZone(fraction.1);
        Ok(Timestamp(year, month, day, hour, minute, second, fraction.0, offset))
  }

  // ---------------------------------------------------------------------
  // JSON
  // ---------------------------------------------------------------------

  /** The JSON form: the text form between double quotes. */
  function MarshalJson(t: Timestamp): (j: string)
    requires Valid(t)
    ensures |j| == |String(t)| + 2 && j[0] == '"' && j[|j| - 1] == '"'
    ensures j[1..|j| - 1] == String(t)
  {
    "\"" + String(t) + "\""
  }

  /** Reading the JSON form: the first and last characters are dropped
      without being inspected, and the rest is parsed. Inputs shorter than
      two characters have no such characters to drop. */
  function UnmarshalJson(b: string): (r: Result<Timestamp>)
    requires |b| >= 2
    ensures r.Ok? ==> Valid(r.value)
    ensures |b| < 21 ==> r.Err?
  {
    Parse(b[1..|b| - 1])
  }

  // ---------------------------------------------------------------------
  // Round trip
  // ---------------------------------------------------------------------

  lemma {:induction false} FieldOfPad(n: nat, width: nat, lo: nat, hi: nat)
    requires n < Pow10(width) && lo <= n <= hi
    ensures Field(PadDecimal(n, width), lo, hi) == Ok(n)
  {
    PadDecimalValue(n, width);
  }

  /** Where each field sits in the date text. */
  lemma DateLayout(t: Timestamp)
    requires Valid(t)
    ensures var d := DateText(t);
      && d[0..4] == PadDecimal(t.year, 4)
      && d[5..7] == PadDecimal(t.month, 2)
      && d[8..10] == PadDecimal(t.day, 2)
      && d[4] == '-' && d[7] == '-'
  {
  }

  /** Where each field sits in the time text. */
  lemma TimeLayout(t: Timestamp)
    requires Valid(t)
    ensures var d := TimeText(t);
      && d[0..2] == PadDecimal(t.hour, 2)
      && d[3..5] == PadDecimal(t.minute, 2)
      && d[6..8] == PadDecimal(t.second, 2)
      && d[2] == ':' && d[5] == ':'
  {
  }

  /** Where each field sits in the date and time text. */
  lemma DateTimeLayout(t: Timestamp)
    requires Valid(t)
    ensures var d := DateTimeText(t);
      && d[0..4] == PadDecimal(t.year, 4)
      && d[5..7] == PadDecimal(t.month, 2)
      && d[8..10] == PadDecimal(t.day, 2)
      && d[11..13] == PadDecimal(t.hour, 2)
      && d[14..16] == PadDecimal(t.minute, 2)
      && d[17..19] == PadDecimal(t.second, 2)
      && d[4] == '-' && d[7] == '-' && d[10] == 'T' && d[13] == ':' && d[16] == ':'
  {
    var a, b := DateText(t), TimeText(t);
    var d := DateTimeText(t);
    DateLayout(t);
    TimeLayout(t);
    assert d[..10] == a && d[11..] == b;
    assert d[0..4] == a[0..4] && d[5..7] == a[5..7] && d[8..10] == a[8..10];
    assert d[11..13] == b[0..2] && d[14..16] == b[3..5] && d[17..19] == b[6..8];
  }

  /** The fraction text is read back as the truncated milliseconds, leaving
      the zone text. */
  lemma {:induction false} FractionRoundTrip(nanos: nat, z: string)
    requires nanos < NanosPerSecond && |z| > 0 && !IsDigit(z[0])
    ensures ParseFraction(FractionText(nanos) + z) == (nanos / NanosPerMilli * NanosPerMilli, z)
  {
    var f := FractionText(nanos);
    var s := f + z;
    var digits := PadDecimal(nanos / NanosPerMilli, 3);
    assert s[1..4] == digits;
    assert DigitRunEnd(s, 2) == 4 by {
      assert IsDigit(s[2]) && IsDigit(s[3]) && !IsDigit(s[4]);
      assert DigitRunEnd(s, 4) == 4;
      assert DigitRunEnd(s, 3) == 4;
    }
    Pow10Nine();
    PadDecimalValue(nanos / NanosPerMilli, 3);
    assert digits[..3] == digits;
    assert FractionNanos(digits) == DecimalValue(digits) * Pow10(6);
    assert s[4..] == z;
  }

  /** The zone text is read back as the offset. */
  lemma {:induction false} ZoneRoundTrip(offset: int)
    requires -MaxOffset <= offset <= MaxOffset
    ensures ParseZone(ZoneText(offset)) == Ok(offset)
  {
    if offset != 0 {
      var z := ZoneText(offset);
      var a := if offset < 0 then -offset else offset;
      assert z[1..3] == PadDecimal(a / 60, 2);
      assert z[4..6] == PadDecimal(a % 60, 2);
      FieldOfPad(a / 60, 2, 0, 23);
      FieldOfPad(a % 60, 2, 0, 59);
    }
  }

  /** A text laid out like the date and time text of `t` reads back as the
      fields of `t`. */
  lemma {:induction false} DateTimeFields(s: string, t: Timestamp)
    requires Valid(t) && |s| >= 19
    requires && s[0..4] == PadDecimal(t.year, 4)
             && s[5..7] == PadDecimal(t.month, 2)
             && s[8..10] == PadDecimal(t.day, 2)
             && s[11..13] == PadDecimal(t.hour, 2)
             && s[14..16] == PadDecimal(t.minute, 2)
             && s[17..19] == PadDecimal(t.second, 2)
    ensures Field(s[0..4], 0, 9999) == Ok(t.year)
    ensures Field(s[5..7], 1, 12) == Ok(t.month)
    ensures Field(s[8..10], 1, DaysIn(t.month, t.year)) == Ok(t.day)
    ensures Field(s[11..13], 0, 23) == Ok(t.hour)
    ensures Field(s[14..16], 0, 59) == Ok(t.minute)
    ensures Field(s[17..19], 0, 59) == Ok(t.second)
  {
    FieldOfPad(t.year, 4, 0, 9999);
    FieldOfPad(t.month, 2, 1, 12);
    FieldOfPad(t.day, 2, 1, DaysIn(t.month, t.year));
    FieldOfPad(t.hour, 2, 0, 23);
    FieldOfPad(t.minute, 2, 0, 59);
    FieldOfPad(t.second, 2, 0, 59);
  }

  /** The text form is the date and time text, then the fraction and zone. */
  lemma StringSplit(t: Timestamp)
    requires Valid(t)
    ensures String(t)[..19] == DateTimeText(t)
    ensures String(t)[19..] == FractionText(t.nanos) + ZoneText(t.offset)
  {
  }

  /** Where each field sits in the text form. */
  lemma {:induction false} StringLayout(t: Timestamp)
    requires Valid(t)
    ensures var s := String(t);
      && s[0..4] == PadDecimal(t.year, 4)
      && s[5..7] == PadDecimal(t.month, 2)
      && s[8..10] == PadDecimal(t.day, 2)
      && s[11..13] == PadDecimal(t.hour, 2)
      && s[14..16] == PadDecimal(t.minute, 2)
      && s[17..19] == PadDecimal(t.second, 2)
      && s[4] == '-' && s[7] == '-' && s[10] == 'T' && s[13] == ':' && s[16] == ':'
      && s[19..] == FractionText(t.nanos) + ZoneText(t.offset)
  {
    var s := String(t);
    var d := DateTimeText(t);
    DateTimeLayout(t);
    StringSplit(t);
    assert s[0..4] == d[0..4] && s[5..7] == d[5..7] && s[8..10] == d[8..10];
    assert s[11..13] == d[11..13] && s[14..16] == d[14..16] && s[17..19] == d[17..19];
  }

  /** Reading the text form gives back the timestamp truncated to
      milliseconds. */
  lemma {:induction false} ParseString(t: Timestamp)
    requires Valid(t)
    ensures Parse(String(t)) == Ok(Truncate(t))
  {
    var z := ZoneText(t.offset);
    var s := String(t);
    StringLayout(t);
    DateTimeFields(s, t);
    assert ParseFraction(s[19..]) == (Truncate(t).nanos, z) by {
      FractionRoundTrip(t.nanos, z);
    }
    assert ParseZone(z) == Ok(t.offset) by {
      ZoneRoundTrip(t.offset);
    }
  }

  /** Unmarshalling the JSON form gives back the timestamp truncated to
      milliseconds. */
  lemma UnmarshalMarshal(t: Timestamp)
    requires Valid(t)
    ensures UnmarshalJson(MarshalJson(t)) == Ok(Truncate(t))
  {
    ParseString(t);
  }

  /** The text form ignores everything below the millisecond. */
  lemma StringOfTruncate(t: Timestamp)
    requires Valid(t)
    ensures Valid(Truncate(t)) && String(Truncate(t)) == String(t)
  {
    var q := t.nanos / NanosPerMilli;
    assert q * NanosPerMilli / NanosPerMilli == q;
  }

  /** Two timestamps have the same text form exactly when they agree down
      to the millisecond. */
  lemma StringIff(t1: Timestamp, t2: Timestamp)
    requires Valid(t1) && Valid(t2)
    ensures String(t1) == String(t2) <==> Truncate(t1) == Truncate(t2)
  {
    ParseString(t1);
    ParseString(t2);
    StringOfTruncate(t1);
    StringOfTruncate(t2);
  }

  /** The quotes around the JSON form are not checked: any two delimiters
      will do. */
  lemma DelimitersNotChecked(t: Timestamp)
    requires Valid(t)
    ensures UnmarshalJson("x" + String(t) + "y") == Ok(Truncate(t))
  {
    var b := "x" + String(t) + "y";
    assert b[1..|b| - 1] == String(t);
    ParseString(t);
  }

  /** JSON `null` is not a timestamp: two characters remain after the
      delimiters are dropped. */
  lemma NullRejected()
    ensures UnmarshalJson("null") == Err(MalformedTimestamp)
  {
  }

  /** The day is checked against the month's length in that year: 29
      February is a valid day in 2016 and its text is read back, while no
      text at all reads as 29 February 2015. */
  lemma LeapDays(s: string)
    ensures Valid(Timestamp(2016, 2, 29, 0, 0, 0, 0, 0))
    ensures !Valid(Timestamp(2015, 2, 29, 0, 0, 0, 0, 0))
    ensures Parse(s) != Ok(Timestamp(2015, 2, 29, 0, 0, 0, 0, 0))
  {
    assert DaysIn(2, 2016) == 29 && DaysIn(2, 2015) == 28;
  }

  /** Fraction digits beyond the ninth are dropped on reading. */
  lemma LongFraction()
    ensures FractionNanos("1234567891") == 123456789
    ensures FractionNanos("5") == 500000000
  {
    var d := "1234567891";
    assert d[..9] == "123456789";
    assert "123456789" == PadDecimal(123456789, 9);
    PadDecimalValue(123456789, 9);
    Pow10Nine();
    assert FractionNanos(d) == 123456789 * Pow10(0);
    Pow10Add(1, 8);
    assert "5" == PadDecimal(5, 1);
    PadDecimalValue(5, 1);
    assert FractionNanos("5") == 5 * Pow10(8);
  }

  /** A zero offset written as `-00:00` or `+00:00` reads as UTC, which the
      text form writes as `Z`. */
  lemma ZeroOffsetIsUtc()
    ensures ParseZone("-00:00") == Ok(0) && ParseZone("+00:00") == Ok(0)
    ensures ZoneText(0) == "Z"
  {
    var m, p := "-00:00", "+00:00";
    assert m[1..3] == PadDecimal(0, 2) && m[4..6] == PadDecimal(0, 2);
    assert p[1..3] == PadDecimal(0, 2) && p[4..6] == PadDecimal(0, 2);
    FieldOfPad(0, 2, 0, 23);
    FieldOfPad(0, 2, 0, 59);
  }
}

=== FILE: uuids.dfy ===
/** UUIDs as the identifier scheme uses them: a 16-byte value, its canonical
    text `xxxxxxxx-xxxx-xxxx-xxxx-xxxxxxxxxxxx` (section 3 of RFC 4122, written
    in lower case), and the text forms the UUID parser accepts.

    Generating a UUID (random version 4, or name-based version 5 over SHA-1)
    is not modelled: callers receive the 16 bytes as a parameter.
 */
module Uuids {
  import opened Results
  import opened Numerals
  import opened GoStrings

  type Uuid = s: seq<uint8> | |s| == 16 witness seq(16, i => 0)

  /** The four dash positions of the canonical text. */
  predicate IsDashPosition(i: int) {
    i == 8 || i == 13 || i == 18 || i == 23
  }

  /** Where byte `k`'s two hex digits start in the canonical text. */
  function PairOffset(k: nat): (p: nat)
    requires k < 16
    ensures p + 1 < 36 && !IsDashPosition(p) && !IsDashPosition(p + 1)
  {
    2 * k + (if k >= 4 then 1 else 0) + (if k >= 6 then 1 else 0)
      + (if k >= 8 then 1 else 0) + (if k >= 10 then 1 else 0)
  }

  /** The byte a non-dash position of the canonical text belongs to. */
  function ByteAt(i: nat): (k: nat)
    requires i < 36 && !IsDashPosition(i)
    ensures k < 16 && (i == PairOffset(k) || i == PairOffset(k) + 1)
  {
    var digit := i - (if i > 8 then 1 else 0) - (if i > 13 then 1 else 0)
      - (if i > 18 then 1 else 0) - (if i > 23 then 1 else 0);
    digit / 2
  }

  lemma ByteAtPairOffset(k: nat)
    requires k < 16
    ensures ByteAt(PairOffset(k)) == k && ByteAt(PairOffset(k) + 1) == k
  {
    if k < 4 {
    } else if k < 6 {
    } else if k < 8 {
    } else if k < 10 {
    } else {
    }
  }

  lemma ByteAtPairOffsets()
    ensures forall k :: 0 <= k < 16 ==> ByteAt(PairOffset(k)) == k && ByteAt(PairOffset(k) + 1) == k
  {
    forall k | 0 <= k < 16 {
      ByteAtPairOffset(k);
    }
  }

  /** The canonical text of `u`: 32 lower-case hex digits in groups of
      8-4-4-4-12, high digit of each byte first. */
  function ToString(u: Uuid): (s: string)
    ensures |s| == 36
    ensures forall i :: 0 <= i < 36 ==> (s[i] == '-' <==> IsDashPosition(i))
    ensures forall i :: 0 <= i < 36 && !IsDashPosition(i) ==> IsLowerHexDigit(s[i])
    ensures forall k :: 0 <= k < 16 ==>
      s[PairOffset(k)] == HexChar(u[k] / 16) && s[PairOffset(k) + 1] == HexChar(u[k] % 16)
  {
    ByteAtPairOffsets();
    seq(36, i requires 0 <= i < 36 =>
      if IsDashPosition(i) then '-'
      else
        var k := ByteAt(i);
        if i == PairOffset(k) then HexChar(u[k] / 16) else HexChar(u[k] % 16))
  }

  /** Both digits of every byte are hexadecimal and the four dashes sit in
      place, looking only at the first 36 characters. */
  predicate CanonicalShape(s: string)
    requires |s| >= 36
  {
    && s[8] == '-' && s[13] == '-' && s[18] == '-' && s[23] == '-'
    && forall k :: 0 <= k < 16 ==> IsHexDigit(s[PairOffset(k)]) && IsHexDigit(s[PairOffset(k) + 1])
  }

  function HexByte(hi: char, lo: char): (b: uint8)
    requires IsHexDigit(hi) && IsHexDigit(lo)
  {
    HexValue(hi) * 16 + HexValue(lo)
  }

  /** The dashed form read from the first 36 characters of `s`. */
  function ParseDashed(s: string): (r: Option<Uuid>)
    requires |s| >= 36
    ensures r.Some? <==> CanonicalShape(s)
    ensures r.Some? ==> forall k :: 0 <= k < 16 ==>
      HexValue(s[PairOffset(k)]) == r.value[k] / 16 && HexValue(s[PairOffset(k) + 1]) == r.value[k] % 16
  {
    if CanonicalShape(s) then
      Some(seq(16, k requires 0 <= k < 16 => HexByte(s[PairOffset(k)], s[PairOffset(k) + 1])))
    else None
  }

  /** ASCII case-insensitive equality, as Go's `strings.EqualFold` behaves
      on the ASCII prefix `urn:uuid:`. */
  predicate EqualFoldAscii(a: string, b: string) {
    |a| == |b| && forall i :: 0 <= i < |a| ==> LowerAscii(a[i]) == LowerAscii(b[i])
  }

  function LowerAscii(c: char): char {
    if 'A' <= c <= 'Z' then (c as int + 32) as char else c
  }

  /** The text forms the UUID parser accepts: the 36-character dashed form,
      the same prefixed by `urn:uuid:` (any case), the dashed form with one
      leading and one trailing character around it (meant for braces, but
      neither character is inspected), and 32 bare hex digits. Any other
      length is rejected. */
  function Parse(s: string): (r: Option<Uuid>)
    ensures r.Some? ==> |s| == 32 || |s| == 36 || |s| == 38 || |s| == 45
    ensures |s| == 36 ==> (r.Some? <==> CanonicalShape(s))
  {
    if |s| == 36 then ParseDashed(s)
    else if |s| == 45 then
      if EqualFoldAscii(s[..9], "urn:uuid:") then ParseDashed(s[9..]) else None
    else if |s| == 38 then ParseDashed(s[1..])
    else if |s| == 32 then
      if forall k :: 0 <= k < 16 ==> IsHexDigit(s[2 * k]) && IsHexDigit(s[2 * k + 1]) then
        Some(seq(16, k requires 0 <= k < 16 => HexByte(s[2 * k], s[2 * k + 1])))
      else None
    else None
  }

  predicate IsValid(s: string) {
    Parse(s).Some?
  }

  lemma ToStringShape(u: Uuid)
    ensures CanonicalShape(ToString(u))
  {
    var s := ToString(u);
    assert s[8] == '-' && s[13] == '-' && s[18] == '-' && s[23] == '-';
  }

  /** Two UUIDs whose bytes have the same high and low hex digits agree. */
  lemma SameDigitsSameBytes(u: Uuid, v: Uuid)
    requires forall k :: 0 <= k < 16 ==> u[k] / 16 == v[k] / 16 && u[k] % 16 == v[k] % 16
    ensures u == v
  {
    forall k | 0 <= k < 16
      ensures u[k] == v[k]
    {
      assert u[k] == 16 * (u[k] / 16) + u[k] % 16;
      assert v[k] == 16 * (v[k] / 16) + v[k] % 16;
    }
  }

  /** Parsing the canonical text gives back the UUID. */
  lemma ParseToString(u: Uuid)
    ensures Parse(ToString(u)) == Some(u)
  {
    var s := ToString(u);
    ToStringShape(u);
    assert Parse(s) == ParseDashed(s);
    var v := ParseDashed(s).value;
    SameDigitsSameBytes(u, v);
  }

  /** Distinct UUIDs have distinct canonical texts. */
  lemma ToStringInjective(u: Uuid, w: Uuid)
    ensures ToString(u) == ToString(w) ==> u == w
  {
    ParseToString(u);
    ParseToString(w);
  }

  /** The canonical text never holds the identifier separator `--` and does
      not start with a dash. */
  lemma ToStringHasNoSeparator(u: Uuid)
    ensures NoDoubleDash(ToString(u))
    ensures ToString(u)[0] != '-'
  {
  }

  /** The namespace of name-based identifiers of cyber-observable objects. */
  const ObservableNamespaceText: string := "00abedb4-aa42-466c-9c01-fed23315a9b7"

  const ObservableNamespace: Uuid :=
    [0x00, 0xab, 0xed, 0xb4, 0xaa, 0x42, 0x46, 0x6c, 0x9c, 0x01, 0xfe, 0xd2, 0x33, 0x15, 0xa9, 0xb7]

  /** A dashed text in lower case is the canonical text of the UUID it
      parses to: the canonical text is the only lower-case spelling. */
  lemma ToStringOfParse(s: string)
    requires |s| == 36 && CanonicalShape(s)
    requires forall i :: 0 <= i < 36 && !IsDashPosition(i) ==> IsLowerHexDigit(s[i])
    ensures Parse(s).Some? && ToString(Parse(s).value) == s
  {
    assert Parse(s) == ParseDashed(s);
    var u := ParseDashed(s).value;
    forall i | 0 <= i < 36
      ensures ToString(u)[i] == s[i]
    {
      ToStringOfParseAt(s, u, i);
    }
    assert ToString(u) == s;
  }

  lemma ToStringOfParseAt(s: string, u: Uuid, i: nat)
    requires |s| == 36 && CanonicalShape(s) && ParseDashed(s) == Some(u)
    requires forall i :: 0 <= i < 36 && !IsDashPosition(i) ==> IsLowerHexDigit(s[i])
    requires i < 36
    ensures ToString(u)[i] == s[i]
  {
    if IsDashPosition(i) {
      assert s[i] == '-';
    } else {
      var k := ByteAt(i);
      HexCharOfValue(s[i]);
    }
  }

  lemma ObservableNamespaceDigits()
    ensures forall k :: 0 <= k < 16 ==>
      var s := ObservableNamespaceText;
      && IsLowerHexDigit(s[PairOffset(k)]) && IsLowerHexDigit(s[PairOffset(k) + 1])
      && HexByte(s[PairOffset(k)], s[PairOffset(k) + 1]) == ObservableNamespace[k]
  {
    var s := ObservableNamespaceText;
    forall k | 0 <= k < 16
      ensures IsLowerHexDigit(s[PairOffset(k)]) && IsLowerHexDigit(s[PairOffset(k) + 1])
      ensures HexByte(s[PairOffset(k)], s[PairOffset(k) + 1]) == ObservableNamespace[k]
    {
      assert k == 0 || k == 1 || k == 2 || k == 3 || k == 4 || k == 5 || k == 6 || k == 7
        || k == 8 || k == 9 || k == 10 || k == 11 || k == 12 || k == 13 || k == 14 || k == 15;
    }
  }

  /** The namespace text parses (so the library's must-parse succeeds) to the
      namespace bytes, and it is the canonical text of those bytes. */
  lemma ObservableNamespaceParses()
    ensures Parse(ObservableNamespaceText) == Some(ObservableNamespace)
    ensures ToString(ObservableNamespace) == ObservableNamespaceText
  {
    var s := ObservableNamespaceText;
    ObservableNamespaceShape();
    ObservableNamespaceLower();
    ToStringOfParse(s);
  }

  lemma ObservableNamespaceShape()
    ensures CanonicalShape(ObservableNamespaceText)
    ensures Parse(ObservableNamespaceText) == Some(ObservableNamespace)
  {
    var s := ObservableNamespaceText;
    ObservableNamespaceDigits();
    assert CanonicalShape(s);
    assert Parse(s) == ParseDashed(s);
    assert ParseDashed(s).value == ObservableNamespace;
  }

  lemma ObservableNamespaceLower()
    ensures forall i :: 0 <= i < 36 && !IsDashPosition(i) ==> IsLowerHexDigit(ObservableNamespaceText[i])
  {
    var s := ObservableNamespaceText;
    ObservableNamespaceDigits();
    forall i | 0 <= i < 36 && !IsDashPosition(i)
      ensures IsLowerHexDigit(s[i])
    {
      var k := ByteAt(i);
    }
  }
}
